=== FILE: README.md ===
# Sprite registry of the JRPG engine, in Dafny

This project models the sprite-management core of a small 2D game engine. It
covers four parts:

- the `SpriteManager` registry, which keeps every sprite under its unique name
  in a sorted dictionary and runs the per-frame update and draw passes;
- the `Sprite` entity;
- the `AnimatedSprite` entity, with its frame-timing state machine;
- the `RemoveAll` extension method on sorted dictionaries.

Everything is modelled as immutable values and pure functions. An operation
that mutates objects in the original here returns the new state. For a draw,
it also returns the draw calls that were submitted.

Modules, one per file:

| file | module | what it holds |
|---|---|---|
| `options.dfy` | `Options` | `Option`, standing for a nullable reference |
| `numerics.dfy` | `Numerics` | C# integer division and remainder, which truncate toward zero; the float-to-int cast |
| `geometry.dfy` | `Geometry` | vectors, integer rectangles, rectangle intersection |
| `ordering.dfy` | `Ordering` | the key order and strictly sorted key sequences |
| `sorted_dict.dfy` | `SortedDict` | the sorted dictionary and `RemoveAll` |
| `animation.dfy` | `Animation` | the animated sprite's frame, timing and play state |
| `sprite.dfy` | `Sprites` | the sprite entity: construction, `Rect`, `Update`, `Draw`, `CollidesWith` |
| `sprite_manager.dfy` | `SpriteRegistry` | the registry: create, look up, destroy, query by tag, and the update and draw passes |
| `update_as_written.dfy` | `UpdateAsWritten` | the update pass as the source writes it, with its live enumeration (see Findings) |

Modelling choices:

- **Sprite variants.** `Sprite` and `AnimatedSprite` form one datatype whose
  `kind` is either `Plain` or `Animated(anim)`. `Rect`, `Update` and `Draw`
  dispatch on the kind, as the virtual members do.
- **Sorted dictionary.** A `SortedDictionary<string, Sprite>` is a map plus
  the strictly ascending sequence of its keys. That sequence is its
  enumeration order.
- **Elapsed time.** The game's elapsed time is a parameter `dt` in seconds.
- **Integer arithmetic.** Sizes, frame indices and rectangle coordinates are
  integers. C#'s truncating `/` and `%` are written out in `Numerics`.
- **Frames per second of zero.** `1f / 0` is positive infinity, which no
  elapsed time exceeds. It is modelled as `FrameTime.Never`.
- **The model follows the code as written:**
  - An update advances at most one frame, and only when the accumulated
    time is strictly greater than one frame duration.
  - Constructors accept any frame count and frame rate. Invalid values are
    not rejected.
  - A zero frame count fails only when an update advances a frame, or when a
    visible animated sprite is drawn. In manual mode the registry's pass
    touches no sprite, so nothing fails there. `DrawSprites` and
    `DrawSpritesLate` skip the sprites of the other layer, so each needs only
    its own layer to be drawable (`LayerDrawable`). Both failures are integer
    divisions by zero in the source. The model states them as the
    preconditions `TickDefined` and `DrawDefined`.

## Model

| member | source | states |
|---|---|---|
| Numerics.Div | jrpgsource/jrpgsource/SpriteManagement/AnimatedSprite.cs:98 | C# integer division truncates toward zero: the quotient's magnitude is the quotient of the magnitudes, its sign is the product of the operands' signs, and for non-negative operands it is ordinary division |
| Numerics.Rem | jrpgsource/jrpgsource/SpriteManagement/AnimatedSprite.cs:86 | C# `%`: the remainder's magnitude is the remainder of the magnitudes, it is zero or has the dividend's sign, and it agrees with the mathematical remainder for non-negative operands |
| Numerics.DivRemIdentity | jrpgsource/jrpgsource/SpriteManagement/AnimatedSprite.cs:86 | C#'s division and remainder fit together: quotient times divisor plus remainder gives back the dividend |
| Numerics.Truncate | jrpgsource/jrpgsource/SpriteManagement/Sprite.cs:174-175 | the `(int)` cast of a coordinate drops the fraction toward zero: the result is within one of the value, on the side of zero |
| Geometry.Intersects | jrpgsource/jrpgsource/SpriteManagement/Sprite.cs:174-175 | an assumption about the rendering library's `Rectangle.Intersects`, whose code is not part of this model: overlap is strict on both axes, so it needs positive total width and height, and rectangles that only touch at an edge do not intersect |
| Ordering.Less | jrpgsource/jrpgsource/SpriteManagement/SpriteManager.cs:15-16 | the order the registry's dictionary keeps its names in (ordinal, standing in for the default comparer): a name is never before itself, and a proper prefix comes before the longer name |
| Ordering.SortedUnique | jrpgsource/jrpgsource/SpriteManagement/SpriteManager.cs:15-16 | a sorted dictionary's enumeration order is determined by its set of keys alone |
| SortedDict.ContainsKey | jrpgsource/jrpgsource/SpriteManagement/SpriteManager.cs:260 | a key is found iff the dictionary's enumeration lists it |
| SortedDict.Add | jrpgsource/jrpgsource/SpriteManagement/SpriteManager.cs:167 | adding a new key keeps the keys sorted and maps the new key to the value |
| SortedDict.Remove | jrpgsource/jrpgsource/SpriteManagement/ExtentionMethods.cs:19 | removal drops exactly that key, and removing an absent key changes nothing |
| SortedDict.Where | jrpgsource/jrpgsource/SpriteManagement/ExtentionMethods.cs:17 | the matching keys in enumeration order: a key is listed iff it is present and its entry satisfies the condition |
| SortedDict.RemoveAll | jrpgsource/jrpgsource/SpriteManagement/ExtentionMethods.cs:14-21 | afterwards no entry satisfies the condition, every entry that did not match is still there with its value, and no key is added |
| SortedDict.RemoveAllIsFilter | jrpgsource/jrpgsource/SpriteManagement/ExtentionMethods.cs:17-20 | because the matches are collected before anything is removed, the result is exactly the entries that do not match |
| SortedDict.RemoveAllIdempotent | jrpgsource/jrpgsource/SpriteManagement/ExtentionMethods.cs:14-21 | a second `RemoveAll` with the same condition changes nothing |
| SortedDict.RemoveAllEverything | jrpgsource/jrpgsource/SpriteManagement/SpriteManager.cs:277 | an always-true condition leaves the empty dictionary |
| Animation.TimePerFrame | jrpgsource/jrpgsource/SpriteManagement/AnimatedSprite.cs:58 | the frame duration is the reciprocal of the frame rate, and never elapses for a rate of zero |
| Animation.Start | jrpgsource/jrpgsource/SpriteManagement/AnimatedSprite.cs:54-59 | a new animation is on frame 0, playing, with nothing accumulated and a column width of 0 |
| Animation.Tick | jrpgsource/jrpgsource/SpriteManagement/AnimatedSprite.cs:77-89 | a paused animation is unchanged; otherwise the time accumulates and, if it exceeds one frame duration, the frame advances by exactly one modulo the count and one duration is subtracted; the frame stays in range and accumulated time stays non-negative |
| Animation.RunConservesTime | jrpgsource/jrpgsource/SpriteManagement/AnimatedSprite.cs:81-87 | over any sequence of updates, the remaining accumulated time plus the time spent on advances equals the starting time plus the total elapsed time: the remainder is carried, never dropped |
| Animation.SpentPerFrame | jrpgsource/jrpgsource/SpriteManagement/AnimatedSprite.cs:83-87 | every advance uses up exactly one frame duration |
| Animation.RunCountsFrames | jrpgsource/jrpgsource/SpriteManagement/AnimatedSprite.cs:83-86 | after any sequence of updates the frame is the start frame moved on cyclically once per advance |
| Animation.PausedRunFreezes | jrpgsource/jrpgsource/SpriteManagement/AnimatedSprite.cs:79 | while paused, any number of updates leaves the animation state unchanged |
| Animation.TimingExample | jrpgsource/jrpgsource/SpriteManagement/AnimatedSprite.cs:81-87 | at 2 frames per second, one 0.3 s update stays on frame 0; a second one moves to frame 1 with 0.1 s carried |
| Animation.ExactDurationDoesNotAdvance | jrpgsource/jrpgsource/SpriteManagement/AnimatedSprite.cs:83 | an update that brings the accumulated time exactly to one frame duration does not advance, because the comparison is strict |
| Animation.LongUpdateAdvancesOnce | jrpgsource/jrpgsource/SpriteManagement/AnimatedSprite.cs:83-88 | an update twenty frame durations long still advances one frame only and carries the rest |
| Animation.Reset | jrpgsource/jrpgsource/SpriteManagement/AnimatedSprite.cs:114-118 | frame 0 and nothing accumulated; everything else, including the play state, unchanged |
| Animation.Stop | jrpgsource/jrpgsource/SpriteManagement/AnimatedSprite.cs:123-127 | paused on frame 0 with nothing accumulated; everything else unchanged |
| Animation.Play | jrpgsource/jrpgsource/SpriteManagement/AnimatedSprite.cs:132-135 | only the paused flag changes, to false |
| Animation.Pause | jrpgsource/jrpgsource/SpriteManagement/AnimatedSprite.cs:140-143 | only the paused flag changes, to true |
| Animation.StoppedStaysOnFirstFrame | jrpgsource/jrpgsource/SpriteManagement/AnimatedSprite.cs:123-127 | a stopped animation stays on frame 0 with nothing accumulated, however long it is updated |
| Animation.PlayResumesFromFrozen | jrpgsource/jrpgsource/SpriteManagement/AnimatedSprite.cs:132-143 | pausing, updating for a while and playing again makes the next update behave as if the pause never happened |
| Animation.StopIsResetThenPause | jrpgsource/jrpgsource/SpriteManagement/AnimatedSprite.cs:123-127 | `Stop` is the same as resetting and then pausing |
| Animation.SliceWidth | jrpgsource/jrpgsource/SpriteManagement/AnimatedSprite.cs:98 | the column width is the texture width divided by the frame count, truncated: for a positive count, the largest width that many columns fit into the texture; for a negative count, zero or negative |
| Animation.SourceRect | jrpgsource/jrpgsource/SpriteManagement/AnimatedSprite.cs:98-100 | the source rectangle is one column as wide as the texture width divided by the frame count, starting at the column width times the frame index, at the top, full texture height |
| Animation.SourceRectInsideTexture | jrpgsource/jrpgsource/SpriteManagement/AnimatedSprite.cs:98-100 | for a frame index in range, the column lies inside the texture |
| Animation.ColumnsTile | jrpgsource/jrpgsource/SpriteManagement/AnimatedSprite.cs:98-100 | consecutive frames' columns are adjacent, and the pixels the integer division drops on the right are fewer than the frame count |
| Sprites.NewSprite | jrpgsource/jrpgsource/SpriteManagement/Sprite.cs:128-133 | name and texture as given, tag "default", depth 0.5, unit scale, white, visible, no rectangle, at rest at the origin, not registered; `Rect` is the whole texture |
| Sprites.NewSpriteWith | jrpgsource/jrpgsource/SpriteManagement/Sprite.cs:144-156 | the eight-argument constructor sets exactly the given transform and tint fields and the same defaults for the rest |
| Sprites.NewAnimatedSprite | jrpgsource/jrpgsource/SpriteManagement/AnimatedSprite.cs:54-59 | a plain sprite's defaults (at the origin, origin zero, no rotation, depth 0.5, unit scale, white, no rectangle, not registered) plus a fresh animation; before its first draw its `Rect` is 0 wide |
| Sprites.NewAnimatedSpriteWith | jrpgsource/jrpgsource/SpriteManagement/AnimatedSprite.cs:61-68 | the full animated constructor: the given transform and tint plus a fresh animation |
| Sprites.Rect | jrpgsource/jrpgsource/SpriteManagement/Sprite.cs:97-105 | a stored non-empty rectangle is returned as is; the empty one falls back to a rectangle at the origin with the texture's height |
| Sprites.SetRect | jrpgsource/jrpgsource/SpriteManagement/Sprite.cs:106 | only the stored rectangle changes, and a non-empty one is what `Rect` then reports |
| Sprites.ClearedRectFallsBack | jrpgsource/jrpgsource/SpriteManagement/AnimatedSprite.cs:37-47 | storing the empty rectangle brings back the derived one: the texture size for a plain sprite, the last column width for an animated one |
| Sprites.Move | jrpgsource/jrpgsource/SpriteManagement/Sprite.cs:187-191 | rotation grows by the rotation velocity and position by the velocity, and nothing else changes |
| Sprites.Update | jrpgsource/jrpgsource/SpriteManagement/AnimatedSprite.cs:77-92 | every sprite moves by its velocities; an animated sprite also steps its animation by the elapsed time; nothing else changes |
| Sprites.PlainUpdateIgnoresTime | jrpgsource/jrpgsource/SpriteManagement/Sprite.cs:187-191 | a plain sprite's update gives the same result whatever the elapsed time |
| Sprites.PausedSpriteStillMoves | jrpgsource/jrpgsource/SpriteManagement/AnimatedSprite.cs:79-91 | a paused animated sprite still moves, and moving is all its update does |
| Sprites.Draw | jrpgsource/jrpgsource/SpriteManagement/AnimatedSprite.cs:94-104 | a draw call is made iff the sprite is visible; a plain sprite uses `Rect` and is unchanged; an animated one stores the column width and uses the current frame's column; only the animation's column width ever changes |
| Sprites.RectAfterDraw | jrpgsource/jrpgsource/SpriteManagement/AnimatedSprite.cs:41-42 | after an animated sprite with no stored rectangle is drawn, `Rect` has the size of the column just drawn |
| Sprites.Bounds | jrpgsource/jrpgsource/SpriteManagement/Sprite.cs:174-175 | the collision rectangle has the `Rect` size, and its corner is the position with each coordinate truncated toward zero |
| Sprites.CollidesWith | jrpgsource/jrpgsource/SpriteManagement/Sprite.cs:172-176 | a collision needs the two bounding rectangles to have positive total width and height |
| Sprites.CollidesWithSymmetric | jrpgsource/jrpgsource/SpriteManagement/Sprite.cs:172-176 | `a` collides with `b` iff `b` collides with `a` |
| Sprites.UndrawnAnimatedSpritesDoNotCollide | jrpgsource/jrpgsource/SpriteManagement/AnimatedSprite.cs:37-43 | two animated sprites with no stored rectangle that were never drawn report width 0 and never collide |
| SpriteRegistry.Valid | jrpgsource/jrpgsource/SpriteManagement/SpriteManager.cs:165-168 | the registry invariant: the key order is valid, and every sprite met while enumerating the keys is stored under its own name |
| SpriteRegistry.NewManager | jrpgsource/jrpgsource/SpriteManagement/SpriteManager.cs:15-21 | a new registry is empty, with the camera at the origin and both passes automatic |
| SpriteRegistry.HasSprite | jrpgsource/jrpgsource/SpriteManagement/SpriteManager.cs:258-261 | true iff a sprite is registered under the name |
| SpriteRegistry.CreateSprite | jrpgsource/jrpgsource/SpriteManagement/SpriteManager.cs:163-173 | a taken name is refused with no change and no result; otherwise the sprite is added under its name with its back-reference set, other registry fields stay, and the registered sprite is returned |
| SpriteRegistry.CreateSpriteAt | jrpgsource/jrpgsource/SpriteManagement/SpriteManager.cs:180-184 | the caller's sprite gets the position even when the name is taken; otherwise it is registered at that position |
| SpriteRegistry.CreateSpriteNamed | jrpgsource/jrpgsource/SpriteManagement/SpriteManager.cs:191-194 | a new default sprite is registered under a free name; a taken name changes nothing and returns no sprite |
| SpriteRegistry.CreateSpriteNamedAt | jrpgsource/jrpgsource/SpriteManagement/SpriteManager.cs:202-207 | as above, with the new sprite at the given position |
| SpriteRegistry.GetSprite | jrpgsource/jrpgsource/SpriteManagement/SpriteManager.cs:213-220 | returns a sprite iff the name is registered, and then the one stored under it, whose name is that name |
| SpriteRegistry.CreateThenGet | jrpgsource/jrpgsource/SpriteManagement/SpriteManager.cs:163-173 | after a create, looking up the name gives the created sprite, or the old one if the name was taken; every other lookup is unchanged |
| SpriteRegistry.CreateTwiceRefused | jrpgsource/jrpgsource/SpriteManagement/SpriteManager.cs:165-172 | creating a second sprite under the same name is refused and changes nothing |
| SpriteRegistry.DestroySprite | jrpgsource/jrpgsource/SpriteManagement/SpriteManager.cs:267-270 | exactly the named entry is removed, nothing else changes, and an unknown name is a no-op |
| SpriteRegistry.DestroyIdempotent | jrpgsource/jrpgsource/SpriteManagement/SpriteManager.cs:267-270 | destroying twice is the same as destroying once |
| SpriteRegistry.DestroyThenGet | jrpgsource/jrpgsource/SpriteManagement/SpriteManager.cs:267-270 | after a destroy the name is not found, and every other lookup is unchanged |
| SpriteRegistry.DestroyAllSprites | jrpgsource/jrpgsource/SpriteManagement/SpriteManager.cs:275-278 | the registry is left empty and its other fields unchanged |
| SpriteRegistry.TaggedNames | jrpgsource/jrpgsource/SpriteManagement/SpriteManager.cs:229-233 | the names of the sprites with the tag, ascending: a name is listed iff its sprite has that tag |
| SpriteRegistry.GetSpritesWithTag | jrpgsource/jrpgsource/SpriteManagement/SpriteManager.cs:226-236 | exactly the registered sprites whose tag matches, in strictly ascending name order |
| SpriteRegistry.FirstTaggedIsFirstSelected | jrpgsource/jrpgsource/SpriteManagement/SpriteManager.cs:245-251 | a scan that stops at the first match finds the first of all the matches |
| SpriteRegistry.GetSpriteWithTag | jrpgsource/jrpgsource/SpriteManagement/SpriteManager.cs:242-252 | the first sprite of `GetSpritesWithTag`, or none when there is none |
| SpriteRegistry.UpdateOne | jrpgsource/jrpgsource/SpriteManagement/SpriteManager.cs:87-93 | one iteration stores the updated sprite back, or removes it if its update asks for destruction |
| SpriteRegistry.UpdateEach | jrpgsource/jrpgsource/SpriteManagement/SpriteManager.cs:85-94 | visiting a list of names updates each named sprite once, removes the ones that ask for it, and leaves every other entry alone |
| SpriteRegistry.UpdatedAll | jrpgsource/jrpgsource/SpriteManagement/SpriteManager.cs:85-94 | a pass over every name leaves exactly the updated sprites that did not ask for destruction |
| SpriteRegistry.UpdateSprites | jrpgsource/jrpgsource/SpriteManagement/SpriteManager.cs:83-95 | every sprite present at the start is visited once in ascending name order, and the registry afterwards holds exactly the updated sprites not flagged for destruction; nothing else changes |
| SpriteRegistry.Update | jrpgsource/jrpgsource/SpriteManagement/SpriteManager.cs:75-81 | manual-update mode does nothing, whatever the sprites are; otherwise it is the update pass |
| SpriteRegistry.DestroyedAfterLastUpdate | jrpgsource/jrpgsource/SpriteManagement/SpriteManager.cs:89-93 | a sprite whose update asks for destruction is still updated in that pass, and is gone afterwards |
| SpriteRegistry.DrawEach | jrpgsource/jrpgsource/SpriteManagement/SpriteManager.cs:117-122 | walking the names draws exactly the sprites of the layer, in that order, each with its own draw, and stores each drawn sprite back; other entries are untouched; only the layer's own sprites need to be drawable, and every layer that was drawable stays so |
| SpriteRegistry.DrawSprites | jrpgsource/jrpgsource/SpriteManagement/SpriteManager.cs:115-123 | the sprites not drawn late are drawn in ascending name order, and only they need to be drawable; late sprites are skipped and untouched; the other registry fields do not change |
| SpriteRegistry.DrawSpritesLate | jrpgsource/jrpgsource/SpriteManagement/SpriteManager.cs:125-133 | the sprites drawn late are drawn in ascending name order, and only they need to be drawable; the other sprites are skipped and untouched; the other registry fields do not change |
| SpriteRegistry.Draw | jrpgsource/jrpgsource/SpriteManagement/SpriteManager.cs:98-113 | manual-draw mode draws nothing and changes nothing, whatever the sprites are; otherwise one batch is opened, translated by the negated camera position |
| SpriteRegistry.LayersPartition | jrpgsource/jrpgsource/SpriteManagement/SpriteManager.cs:120-130 | the two layers together hold every name exactly once |
| SpriteRegistry.SecondLayer | jrpgsource/jrpgsource/SpriteManagement/SpriteManager.cs:108-109 | drawing the first layer does not change which sprites the late layer draws, nor what they submit |
| SpriteRegistry.DrawPassOrder | jrpgsource/jrpgsource/SpriteManagement/SpriteManager.cs:104-111 | the batch asks every registered sprite to draw exactly once: the non-late ones first, then the late ones, each layer in ascending name order |
| SpriteRegistry.DrawPassRecords | jrpgsource/jrpgsource/SpriteManagement/SpriteManager.cs:117-131 | each call in the batch carries the draw its sprite makes on its own, so invisible sprites submit nothing |
| SpriteRegistry.DrawPassLateLast | jrpgsource/jrpgsource/SpriteManagement/SpriteManager.cs:108-109 | no late sprite is drawn before a sprite that is not late |
| SpriteRegistry.DrawPassState | jrpgsource/jrpgsource/SpriteManagement/SpriteManager.cs:98-133 | after the pass every sprite is what its own draw left behind, and the names and other fields are unchanged |
| UpdateAsWritten.FirstFlagged | jrpgsource/jrpgsource/SpriteManagement/SpriteManager.cs:87-93 | the position of the first sprite whose update asks for destruction: every sprite before it stays, and it (if any) is flagged |
| UpdateAsWritten.UpdatableReached | jrpgsource/jrpgsource/SpriteManagement/SpriteManager.cs:85-94 | when every sprite can be updated, the live loop can reach as far as it goes, and a flagged sprite exists iff some sprite is flagged |
| UpdateAsWritten.LiveEach | jrpgsource/jrpgsource/SpriteManagement/SpriteManager.cs:85-94 | the live loop visits a prefix of the names in order; it needs only the sprites it reaches to be updatable |
| UpdateAsWritten.LiveStopsAtFirst | jrpgsource/jrpgsource/SpriteManagement/SpriteManager.cs:85-94 | the live loop visits exactly the names up to and including the first flagged sprite, and ends in the exception iff there is one |
| UpdateAsWritten.LiveUpdatesVisited | jrpgsource/jrpgsource/SpriteManagement/SpriteManager.cs:87-93 | every sprite the live loop visits is replaced by its update, or removed when the update asks for destruction; every other entry is untouched |
| UpdateAsWritten.LiveVisitsUpToFlagged | jrpgsource/jrpgsource/SpriteManagement/SpriteManager.cs:89-93 | every visited sprite but the last stays, and when the loop throws, the last visited sprite is the one that asked to be destroyed |
| UpdateAsWritten.LiveInvalidatedIff | jrpgsource/jrpgsource/SpriteManagement/SpriteManager.cs:85-94 | the live loop ends in the enumerator exception iff some visited sprite asks for destruction |
| UpdateAsWritten.LiveAgrees | jrpgsource/jrpgsource/SpriteManagement/SpriteManager.cs:85-94 | without a destruction, the live loop does exactly what the snapshot loop does |
| UpdateAsWritten.LiveStopsEarly | jrpgsource/jrpgsource/SpriteManagement/SpriteManager.cs:85-94 | every sprite under a name the live loop did not reach keeps its old state |
| UpdateAsWritten.UpdateSpritesAsWritten | jrpgsource/jrpgsource/SpriteManagement/SpriteManager.cs:83-95 | the pass as written needs only the sprites up to the first destruction to be updatable; it ends in the exception iff there is a destruction (for an all-updatable registry: iff some sprite asks for it); it visits a prefix of the names, each visited sprite holds its update or is removed if flagged, the rest are untouched; only the sprites change |
| UpdateAsWritten.AgreesWithoutDestruction | jrpgsource/jrpgsource/SpriteManagement/SpriteManager.cs:83-95 | when no sprite asks for destruction, the pass as written and the snapshot pass agree |
| UpdateAsWritten.ThrowsAfterDestruction | jrpgsource/jrpgsource/SpriteManagement/SpriteManager.cs:83-95 | once a sprite asks for destruction, the pass as written throws right after updating it: it visited exactly the names up to that sprite, only that one was flagged, the sprites before it hold their update, the flagged one is removed, and the sprites after it miss their update |
| UpdateAsWritten.FlaggedSpriteBreaksTheLoop | jrpgsource/jrpgsource/SpriteManagement/SpriteManager.cs:89-93 | with "a" flagged and "b" moving, the pass as written stops after removing "a", and "b" does not move |
| UpdateAsWritten.SnapshotLoopMovesTheRest | jrpgsource/jrpgsource/SpriteManagement/SpriteManager.cs:85-93 | on the same registry, the snapshot pass visits both sprites, removes "a" and moves "b" |

## Left out

- **Key order.** The source orders names with the default, culture-sensitive string comparer. The model uses ordinal code-point order (`Ordering.Less`). The visiting order can differ from the source's for names that culture collation sorts differently.
- **Key equality.** The default comparer also treats some distinct strings as equal, such as a name that differs from another only by a soft hyphen (U+00AD). The source's `HasSprite` and `CreateSprite` then treat the second name as taken. The model compares names exactly, so it accepts that name as new.
- **Initialization.** `Initialize` is an empty hook on both sprite classes, so registration does not model calling it. The registry's own `Initialize` only creates the render batch.
- **`Dispose`.** The registry's disposal frees the render batch. That is resource handling with no effect on the model.
- **The render batch.** `SpriteBatch` is not modelled as an object. A batch is recorded as its camera translation plus the list of draw calls. The other `Begin` arguments are constants: immediate sort mode and alpha blending.
- **Accessors.** Camera, manual-mode and sprite properties are plain getters and setters over datatype fields. They have no members of their own.
- **Floats.** Positions, rotations, times and depths are `real`, so single-precision rounding is not modelled. Only the float-to-int cast (`Numerics.Truncate`) and the infinite frame duration of a zero frame rate are written out. NaN and infinite positions are not modelled.
- Numerics.Truncate: is unbounded. C#'s `(int)` cast of a float outside the 32-bit range gives an unspecified value, and the model does not reproduce that.
- Geometry.Intersects: works on unbounded integers. The library computes `X + Width` in 32-bit arithmetic, which can wrap for rectangles near the end of the range; the model does not wrap.
- Animation.Tick: does not model the 32-bit wrap-around of `frame++` at `int.MaxValue`. The frame is taken modulo the count right after, so only a frame index set to the maximum from outside could reach it.
- **Division by zero.** An update that advances an animation with zero frames throws. So does drawing a visible animated sprite with zero frames. The registry's `Update` and `Draw` require this only outside manual mode, where the pass actually reaches the sprites. `DrawSprites` and `DrawSpritesLate` require it only for the sprites of the layer they draw. The update pass as written requires it only for the sprites up to the first one that asks to be destroyed, since its loop ends there. The model states both as preconditions (`TickDefined`, `DrawDefined`, and the registry's `Updatable` and `Drawable`). It does not model the exception as an outcome.
- **Null references.** Values in the model are never null. The null-texture and null-name failures of the source have no counterpart. A `null` returned by the source is `None`.
- **Object identity.** The source hands out references to the registered sprite object. The model returns the sprite's value instead; `Creation.argument` stands for the caller's object after the call. Mutation through a retained reference after registration is not modelled, and neither is a sprite registered with two registries.
- **`RemoveAll` types.** `RemoveAll` is modelled for the registry's key and value types (string keys), with the condition taking key and value as two arguments rather than one key-value pair.
- **The example entity.** `TestPlayer` is an example sprite driven by keyboard input. It is context for the core and is not part of this model.

## Findings

| source | as written | input that shows it | evidently intended | confidence | as-written member | corrected member |
|---|---|---|---|---|---|---|
| jrpgsource/jrpgsource/SpriteManagement/SpriteManager.cs:85-93 | `UpdateSprites` enumerates the live sorted dictionary and calls `DestroySprite` inside the loop, so the next `MoveNext` throws `InvalidOperationException` after the first removal | two sprites "a" and "b", where "a" is flagged for destruction: "a" is removed, then the loop throws and "b" is never updated | every sprite present at the start is updated once, and the flagged ones are removed, by walking a snapshot of the names | medium, not executed | UpdateAsWritten.UpdateSpritesAsWritten | SpriteRegistry.UpdateSprites |

=== FILE: animation.dfy ===
/**
  The frame-timing state of an animated sprite: which column of the sprite
  sheet is shown, how much time has accumulated towards the next column, and
  whether the animation is paused.
 */
module Animation {
  import opened Numerics
  import opened Geometry

  /**
    Seconds per frame, `1f / framesPerSec`. A single-precision division by zero
    gives positive infinity, which no elapsed time ever exceeds: `Never`.
   */
  datatype FrameTime = Seconds(seconds: real) | Never

  function TimePerFrame(framesPerSec: int): (t: FrameTime)
    ensures t.Never? <==> framesPerSec == 0
    ensures t.Seconds? ==> t.seconds * (framesPerSec as real) == 1.0
  {
    if framesPerSec == 0 then Never else Seconds(1.0 / (framesPerSec as real))
  }

  datatype Animation = Animation(
    frameCount: int,
    frame: int,
    frameWidth: int,
    timePerFrame: FrameTime,
    paused: bool,
    timeElapsed: real)

  /** The state both animated-sprite constructors leave behind. */
  function Start(frameCount: int, framesPerSec: int): (a: Animation)
    ensures a.frameCount == frameCount && a.timePerFrame == TimePerFrame(framesPerSec)
    ensures a.frame == 0 && a.frameWidth == 0 && !a.paused && a.timeElapsed == 0.0
  {
    Animation(frameCount, 0, 0, TimePerFrame(framesPerSec), false, 0.0)
  }

  /** The frame index names a column of the strip. */
  predicate InRange(a: Animation) {
    0 < a.frameCount && 0 <= a.frame < a.frameCount
  }

  /** The strict comparison `timeElapsed > timePerFrame`. */
  predicate Due(elapsed: real, t: FrameTime) {
    t.Seconds? && elapsed > t.seconds
  }

  /** Whether an update by `dt` moves to the next frame. */
  predicate Advances(a: Animation, dt: real) {
    !a.paused && Due(a.timeElapsed + dt, a.timePerFrame)
  }

  /** An advancing update computes `% frameCount`, which throws for a zero count. */
  predicate TickDefined(a: Animation, dt: real) {
    Advances(a, dt) ==> a.frameCount != 0
  }

  /**
    The animation part of `Update`: accumulate `dt` unless paused, and step at
    most one frame, carrying the excess time over instead of dropping it.
   */
  function Tick(a: Animation, dt: real): (r: Animation)
    requires TickDefined(a, dt)
    ensures r.frameCount == a.frameCount && r.frameWidth == a.frameWidth
    ensures r.timePerFrame == a.timePerFrame && r.paused == a.paused
    ensures a.paused ==> r == a
    ensures InRange(a) ==> InRange(r)
    ensures !Advances(a, dt) ==> r.frame == a.frame
    ensures Advances(a, dt) && InRange(a) ==> r.frame == (a.frame + 1) % a.frameCount
    ensures !a.paused ==> r.timeElapsed + (if Advances(a, dt) then a.timePerFrame.seconds else 0.0) == a.timeElapsed + dt
    ensures 0.0 <= dt && 0.0 <= a.timeElapsed ==> 0.0 <= r.timeElapsed
  {
    if a.paused then a
    else
      var e := a.timeElapsed + dt;
      if Due(e, a.timePerFrame) then
        a.(frame := Rem(a.frame + 1, a.frameCount), timeElapsed := e - a.timePerFrame.seconds)
      else
        a.(timeElapsed := e)
  }

  /** A run of successive updates with the given elapsed times. */
  function Run(a: Animation, dts: seq<real>): (r: Animation)
    requires a.frameCount != 0
    ensures r.frameCount == a.frameCount && r.paused == a.paused && r.timePerFrame == a.timePerFrame
    ensures InRange(a) ==> InRange(r)
    decreases |dts|
  {
    if |dts| == 0 then a else Run(Tick(a, dts[0]), dts[1..])
  }

  /** How many of the updates in a run step to the next frame. */
  function Advanced(a: Animation, dts: seq<real>): nat
    requires a.frameCount != 0
    decreases |dts|
  {
    if |dts| == 0 then 0
    else (if Advances(a, dts[0]) then 1 else 0) + Advanced(Tick(a, dts[0]), dts[1..])
  }

  function Sum(dts: seq<real>): real
    decreases |dts|
  {
    if |dts| == 0 then 0.0 else dts[0] + Sum(dts[1..])
  }

  /** The frame reached from `f` after `k` single steps around a strip of `n` frames. */
  function Cycle(f: int, k: nat, n: int): int
    requires 0 < n
    decreases k
  {
    if k == 0 then f else Cycle((f + 1) % n, k - 1, n)
  }

  /**
    The time a run hands over to frame advances: one frame duration for every
    update that steps to the next frame.
   */
  function Spent(a: Animation, dts: seq<real>): real
    requires a.frameCount != 0 && a.timePerFrame.Seconds?
    decreases |dts|
  {
    if |dts| == 0 then 0.0
    else (if Advances(a, dts[0]) then a.timePerFrame.seconds else 0.0) + Spent(Tick(a, dts[0]), dts[1..])
  }

  /**
    Long-run timing: over any run of a playing animation, the time still
    accumulated plus the time spent on frame advances equals the starting
    accumulation plus all elapsed time. The remainder is carried, never dropped.
   */
  lemma {:induction false} RunConservesTime(a: Animation, dts: seq<real>)
    requires a.frameCount != 0 && !a.paused && a.timePerFrame.Seconds?
    ensures Run(a, dts).timeElapsed + Spent(a, dts) == a.timeElapsed + Sum(dts)
    decreases |dts|
  {
    if 0 < |dts| {
      RunConservesTime(Tick(a, dts[0]), dts[1..]);
    }
  }

  /** `n` frame durations of `s` seconds each, added up one by one. */
  function Frames(n: nat, s: real): real
    decreases n
  {
    if n == 0 then 0.0 else s + Frames(n - 1, s)
  }

  lemma {:induction false} FramesIsProduct(n: nat, s: real)
    ensures Frames(n, s) == (n as real) * s
    decreases n
  {
    if 0 < n {
      FramesIsProduct(n - 1, s);
      var m := (n - 1) as real;
      assert (n as real) == m + 1.0;
      assert (m + 1.0) * s == m * s + s;
    }
  }

  lemma FramesAsProduct(x: real, n: nat, s: real)
    requires x == Frames(n, s)
    ensures x == (n as real) * s
  {
    FramesIsProduct(n, s);
  }

  lemma {:induction false} SpentIsFrames(a: Animation, dts: seq<real>)
    requires a.frameCount != 0 && a.timePerFrame.Seconds?
    ensures Spent(a, dts) == Frames(Advanced(a, dts), a.timePerFrame.seconds)
    decreases |dts|
  {
    if 0 < |dts| {
      SpentIsFrames(Tick(a, dts[0]), dts[1..]);
    }
  }

  /** The time spent is one frame duration per advance. */
  lemma {:induction false} SpentPerFrame(a: Animation, dts: seq<real>)
    requires a.frameCount != 0 && a.timePerFrame.Seconds?
    ensures Spent(a, dts) == (Advanced(a, dts) as real) * a.timePerFrame.seconds
  {
    SpentIsFrames(a, dts);
    FramesAsProduct(Spent(a, dts), Advanced(a, dts), a.timePerFrame.seconds);
  }

  /** Over any run, the frame moves on by exactly one step per advance. */
  lemma {:induction false} RunCountsFrames(a: Animation, dts: seq<real>)
    requires InRange(a)
    ensures Run(a, dts).frame == Cycle(a.frame, Advanced(a, dts), a.frameCount)
    decreases |dts|
  {
    if 0 < |dts| {
      var b := Tick(a, dts[0]);
      RunCountsFrames(b, dts[1..]);
      assert Run(a, dts) == Run(b, dts[1..]);
    }
  }

  /** While paused, any number of updates leaves the frame and the accumulated time alone. */
  lemma {:induction false} PausedRunFreezes(a: Animation, dts: seq<real>)
    requires a.frameCount != 0 && a.paused
    ensures Run(a, dts) == a
    decreases |dts|
  {
    if 0 < |dts| {
      PausedRunFreezes(Tick(a, dts[0]), dts[1..]);
    }
  }

  /** The worked timing case: 4 frames at 2 frames per second, two updates of 0.3 s. */
  lemma TimingExample()
    ensures Tick(Start(4, 2), 0.3).frame == 0
    ensures Tick(Start(4, 2), 0.3).timeElapsed == 0.3
    ensures Tick(Tick(Start(4, 2), 0.3), 0.3).frame == 1
    ensures Tick(Tick(Start(4, 2), 0.3), 0.3).timeElapsed == 0.1
  {
  }

  /** Reaching the frame duration exactly is not enough: the comparison is strict. */
  lemma ExactDurationDoesNotAdvance()
    ensures Tick(Start(4, 2), 0.5).frame == 0
    ensures Tick(Start(4, 2), 0.5).timeElapsed == 0.5
  {
  }

  /** However long an update is, it advances one frame at most. */
  lemma LongUpdateAdvancesOnce(a: Animation, dt: real)
    requires InRange(a) && a.frameCount > 2 && a.frame == 0 && !a.paused
    requires a.timePerFrame == Seconds(0.5) && a.timeElapsed == 0.0 && dt == 10.0
    ensures Tick(a, dt).frame == 1 && Tick(a, dt).timeElapsed == 9.5
  {
  }

  /** `Reset`: back to the first frame with nothing accumulated; the play state stays. */
  function Reset(a: Animation): (r: Animation)
    ensures r.frame == 0 && r.timeElapsed == 0.0
    ensures r.(frame := a.frame, timeElapsed := a.timeElapsed) == a
  {
    a.(frame := 0, timeElapsed := 0.0)
  }

  /** `Pause`: only the paused flag changes. */
  function Pause(a: Animation): (r: Animation)
    ensures r.paused
    ensures r.(paused := a.paused) == a
  {
    a.(paused := true)
  }

  /** `Play`: only the paused flag changes. */
  function Play(a: Animation): (r: Animation)
    ensures !r.paused
    ensures r.(paused := a.paused) == a
  {
    a.(paused := false)
  }

  /** `Stop`: `Pause` then `Reset`. */
  function Stop(a: Animation): (r: Animation)
    ensures r.paused && r.frame == 0 && r.timeElapsed == 0.0
    ensures r.(paused := a.paused, frame := a.frame, timeElapsed := a.timeElapsed) == a
  {
    Reset(Pause(a))
  }

  /** A stopped animation stays on its first frame however long it is updated. */
  lemma StoppedStaysOnFirstFrame(a: Animation, dts: seq<real>)
    requires a.frameCount != 0
    ensures Run(Stop(a), dts).frame == 0 && Run(Stop(a), dts).timeElapsed == 0.0
  {
    PausedRunFreezes(Stop(a), dts);
  }

  /**
    `Play` after a pause resumes from the frozen state: the first update
    behaves exactly as it would have had the animation never been paused.
   */
  lemma PlayResumesFromFrozen(a: Animation, dts: seq<real>, dt: real)
    requires a.frameCount != 0 && !a.paused
    ensures Tick(Play(Run(Pause(a), dts)), dt) == Tick(a, dt)
  {
    PausedRunFreezes(Pause(a), dts);
  }

  /** `Stop` and `Pause`-after-`Reset` leave the same state. */
  lemma StopIsResetThenPause(a: Animation)
    ensures Stop(a) == Pause(Reset(a))
  {
  }

  /** The width of one column: the texture width divided by the frame count. */
  function SliceWidth(a: Animation, textureWidth: nat): (w: int)
    requires a.frameCount != 0
    ensures 0 < a.frameCount ==> 0 <= w && w * a.frameCount <= textureWidth < (w + 1) * a.frameCount
    ensures a.frameCount < 0 ==> w <= 0 && Abs(w) == textureWidth / Abs(a.frameCount)
  {
    Div(textureWidth, a.frameCount)
  }

  /** The source rectangle `Draw` cuts out of the sheet for the current frame. */
  function SourceRect(a: Animation, textureWidth: nat, textureHeight: nat): (r: Rectangle)
    requires a.frameCount != 0
    ensures r.y == 0 && r.height == textureHeight && r.width == SliceWidth(a, textureWidth)
    ensures r.x == r.width * a.frame
  {
    var fw := SliceWidth(a, textureWidth);
    Rectangle(fw * a.frame, 0, fw, textureHeight)
  }

  /** For a frame index in range, the slice lies inside the texture. */
  lemma SourceRectInsideTexture(a: Animation, textureWidth: nat, textureHeight: nat)
    requires InRange(a)
    ensures 0 <= SourceRect(a, textureWidth, textureHeight).x
    ensures SourceRect(a, textureWidth, textureHeight).x + SourceRect(a, textureWidth, textureHeight).width <= textureWidth
  {
    SliceInside(textureWidth, a.frameCount, a.frame);
  }

  lemma SliceInside(w: nat, n: int, f: int)
    requires 0 < n && 0 <= f < n
    ensures 0 <= (w / n) * f
    ensures (w / n) * f + w / n <= w
  {
    var fw := w / n;
    MulMono(fw, f + 1, n);
    assert fw * (f + 1) == fw * f + fw;
    assert w == n * fw + w % n;
  }

  lemma MulMono(x: nat, b: int, c: int)
    requires b <= c
    ensures x * b <= x * c
  {
    assert x * c - x * b == x * (c - b);
  }

  /**
    The columns tile the sheet from the left: frame `i + 1` starts where frame
    `i` ends, and the pixels the integer division drops are fewer than one per
    frame.
   */
  lemma ColumnsTile(a: Animation, textureWidth: nat, textureHeight: nat)
    requires 0 < a.frameCount && 0 <= a.frame && a.frame + 1 < a.frameCount
    ensures SourceRect(a.(frame := a.frame + 1), textureWidth, textureHeight).x
         == SourceRect(a, textureWidth, textureHeight).x + SourceRect(a, textureWidth, textureHeight).width
    ensures 0 <= textureWidth - SliceWidth(a, textureWidth) * a.frameCount < a.frameCount
  {
    var fw := SliceWidth(a, textureWidth);
    assert fw * (a.frame + 1) == fw * a.frame + fw;
    assert textureWidth == fw * a.frameCount + textureWidth % a.frameCount;
  }
}

=== FILE: geometry.dfy ===
/**
  The two value types of the rendering library that the sprites compute with:
  a 2D vector of floats and an integer rectangle.
 */
module Geometry {

  datatype Vec = Vec(x: real, y: real)

  const Zero: Vec := Vec(0.0, 0.0)
  const One: Vec := Vec(1.0, 1.0)

  function Add(a: Vec, b: Vec): Vec {
    Vec(a.x + b.x, a.y + b.y)
  }

  /** An integer rectangle given by its top-left corner and its size. */
  datatype Rectangle = Rectangle(x: int, y: int, width: int, height: int)

  /** The library's `Rectangle.Empty`; equality with it compares all four fields. */
  const EmptyRect: Rectangle := Rectangle(0, 0, 0, 0)

  /**
    The library's `Intersects`, taken here as an assumption about that
    routine: the two rectangles overlap strictly on both axes, so rectangles
    that only share an edge do not intersect.
   */
  predicate Intersects(a: Rectangle, b: Rectangle)
    ensures Intersects(a, b) ==> 0 < a.width + b.width && 0 < a.height + b.height
    ensures a.x + a.width == b.x || a.y + a.height == b.y ==> !Intersects(a, b)
  {
    && b.x < a.x + a.width
    && a.x < b.x + b.width
    && b.y < a.y + a.height
    && a.y < b.y + b.height
  }
}

=== FILE: numerics.dfy ===
/**
  The integer operations of the original as C# defines them. Dafny's `/` and `%`
  are Euclidean; C# truncates toward zero, and a float-to-int cast drops the
  fractional part toward zero as well.
 */
module Numerics {

  function Abs(x: int): nat {
    if x < 0 then -x else x
  }

  /** Division of magnitudes, where C# and Dafny agree. */
  function Quotient(n: nat, d: nat): nat
    requires 0 < d
  {
    n / d
  }

  /** C# `a / b` on `int`: the quotient truncated toward zero. */
  function Div(a: int, b: int): (q: int)
    requires b != 0
    ensures Abs(q) == Abs(a) / Abs(b)
    ensures (a < 0) == (b < 0) ==> 0 <= q
    ensures (a < 0) != (b < 0) ==> q <= 0
    ensures 0 <= a && 0 < b ==> q == a / b
  {
    var m: int := Quotient(Abs(a), Abs(b));
    if (a < 0) != (b < 0) then -m else m
  }

  /** C# `a % b` on `int`: the remainder carries the sign of the dividend. */
  function Rem(a: int, b: int): (r: int)
    requires b != 0
    ensures Abs(r) == Abs(a) % Abs(b)
    ensures Abs(r) < Abs(b)
    ensures r != 0 ==> (r < 0) == (a < 0)
    ensures 0 <= a && 0 < b ==> r == a % b
  {
    var n, d := Abs(a), Abs(b);
    var m := Quotient(n, d);
    RemMagnitude(n, d);
    DivTimesDivisor(a, b);
    var mag := n - d * m;
    if a < 0 then -mag else mag
  }

  /** C# division and remainder fit together: `(a / b) * b + a % b == a`. */
  lemma DivRemIdentity(a: int, b: int)
    requires b != 0
    ensures Div(a, b) * b + Rem(a, b) == a
  {
    DivTimesDivisor(a, b);
    RemMagnitude(Abs(a), Abs(b));
  }

  /** The truncated quotient times the divisor has the dividend's sign and the magnitudes' product. */
  lemma DivTimesDivisor(a: int, b: int)
    requires b != 0
    ensures Div(a, b) * b == if a < 0 then -(Abs(b) * Quotient(Abs(a), Abs(b))) else Abs(b) * Quotient(Abs(a), Abs(b))
  {
    var m: int := Quotient(Abs(a), Abs(b));
    if (a < 0) != (b < 0) {
      assert Div(a, b) == -m;
    } else {
      assert Div(a, b) == m;
    }
  }

  /** On magnitudes, the truncated remainder is the ordinary one. */
  lemma RemMagnitude(n: nat, d: nat)
    requires 0 < d
    ensures n - d * (n / d) == n % d
    ensures 0 <= n % d < d
  {
  }

  /** C# `(int)f` on a float: drop the fractional part toward zero. */
  function Truncate(r: real): (t: int)
    ensures 0.0 <= r ==> t as real <= r < t as real + 1.0
    ensures r < 0.0 ==> t as real - 1.0 < r <= t as real
  {
    if 0.0 <= r then r.Floor else -((-r).Floor)
  }
}

=== FILE: options.dfy ===
/** The optional value the registry uses where the original returns a null reference. */
module Options {

  datatype Option<+T> = None | Some(value: T)
}

=== FILE: ordering.dfy ===
/**
  The order in which the registry keeps and visits sprite names.

  The original keys its sorted dictionary with the default, culture-sensitive
  string comparer. This model replaces that with the ordinal (code point by
  code point) lexicographic order on strings; the properties proved about the
  registry only use that `Less` is a strict total order.
 */
module Ordering {

  /** Ordinal lexicographic order: a proper prefix comes first. */
  predicate Less(a: string, b: string)
    ensures Less(a, b) ==> a != b
    ensures |a| < |b| && a == b[..|a|] ==> Less(a, b)
    decreases |a|
  {
    if |a| == 0 then 0 < |b|
    else if |b| == 0 then false
    else if a[0] != b[0] then a[0] < b[0]
    else Less(a[1..], b[1..])
  }

  lemma {:induction false} LessIrreflexive(a: string)
    ensures !Less(a, a)
    decreases |a|
  {
    if 0 < |a| {
      LessIrreflexive(a[1..]);
    }
  }

  lemma {:induction false} LessTransitive(a: string, b: string, c: string)
    requires Less(a, b) && Less(b, c)
    ensures Less(a, c)
    decreases |a|
  {
    if 0 < |a| && a[0] == b[0] && b[0] == c[0] {
      LessTransitive(a[1..], b[1..], c[1..]);
    }
  }

  lemma {:induction false} LessTotal(a: string, b: string)
    ensures a == b || Less(a, b) || Less(b, a)
    decreases |a|
  {
    if 0 < |a| && 0 < |b| && a[0] == b[0] {
      LessTotal(a[1..], b[1..]);
      if a[1..] == b[1..] {
        assert a == [a[0]] + a[1..] && b == [b[0]] + b[1..];
      }
    }
  }

  lemma LessAsymmetric(a: string, b: string)
    requires Less(a, b)
    ensures !Less(b, a)
  {
    if Less(b, a) {
      LessTransitive(a, b, a);
      LessIrreflexive(a);
    }
  }

  lemma HeadIn(s: seq<string>)
    requires 0 < |s|
    ensures s[0] in s
  {
  }

  /** Ascending without repetitions: the shape of a sorted dictionary's keys. */
  ghost predicate StrictlySorted(s: seq<string>) {
    forall i, j :: 0 <= i < j < |s| ==> Less(s[i], s[j])
  }

  lemma TailSorted(s: seq<string>)
    requires StrictlySorted(s) && 0 < |s|
    ensures StrictlySorted(s[1..])
    ensures forall x :: x in s[1..] ==> Less(s[0], x)
    ensures s[0] !in s[1..]
  {
    forall x | x in s[1..]
      ensures Less(s[0], x)
    {
      var j :| 0 <= j < |s[1..]| && s[1..][j] == x;
      assert s[j + 1] == x;
    }
    LessIrreflexive(s[0]);
  }

  lemma ConsSorted(h: string, s: seq<string>)
    requires StrictlySorted(s)
    requires forall x :: x in s ==> Less(h, x)
    ensures StrictlySorted([h] + s)
  {
    var t := [h] + s;
    forall i, j | 0 <= i < j < |t|
      ensures Less(t[i], t[j])
    {
      if i == 0 {
        assert t[j] == s[j - 1];
      } else {
        assert t[i] == s[i - 1] && t[j] == s[j - 1];
      }
    }
  }

  /** Everything below the first key of a sorted sequence is below all of it. */
  lemma BelowHead(k: string, s: seq<string>)
    requires StrictlySorted(s) && 0 < |s| && Less(k, s[0])
    ensures forall x :: x in s ==> Less(k, x)
  {
    TailSorted(s);
    forall x | x in s
      ensures Less(k, x)
    {
      if x != s[0] {
        assert x in s[1..] by {
          assert s == [s[0]] + s[1..];
        }
        LessTransitive(k, s[0], x);
      }
    }
  }

  /** Inserts a new key at its place in a sorted key sequence. */
  function Insert(s: seq<string>, k: string): (r: seq<string>)
    requires StrictlySorted(s) && k !in s
    ensures StrictlySorted(r)
    ensures forall x :: x in r <==> x in s || x == k
    ensures |r| == |s| + 1
  {
    if |s| == 0 then [k]
    else if Less(k, s[0]) then
      BelowHead(k, s);
      ConsSorted(k, s);
      [k] + s
    else
      LessTotal(k, s[0]);
      TailSorted(s);
      assert s == [s[0]] + s[1..];
      var t := Insert(s[1..], k);
      ConsSorted(s[0], t);
      [s[0]] + t
  }

  /** Drops one key from a sorted key sequence; absent keys leave it as it is. */
  function Without(s: seq<string>, k: string): (r: seq<string>)
    requires StrictlySorted(s)
    ensures StrictlySorted(r)
    ensures forall x :: x in r <==> x in s && x != k
    ensures k !in s ==> r == s
  {
    if |s| == 0 then []
    else
      TailSorted(s);
      assert s == [s[0]] + s[1..];
      if s[0] == k then s[1..]
      else
        var t := Without(s[1..], k);
        ConsSorted(s[0], t);
        [s[0]] + t
  }

  /**
    The keys of `keys`, in their order, whose entries satisfy `cond`; this is
    the original's `Where` over a sorted dictionary.
   */
  function Select<V>(e: map<string, V>, keys: seq<string>, cond: (string, V) -> bool): (r: seq<string>)
    requires forall k :: k in keys ==> k in e
    requires StrictlySorted(keys)
    ensures StrictlySorted(r)
    ensures forall x :: x in r <==> x in keys && cond(x, e[x])
    ensures |r| <= |keys|
  {
    if |keys| == 0 then []
    else
      TailSorted(keys);
      assert keys == [keys[0]] + keys[1..];
      var t := Select(e, keys[1..], cond);
      if cond(keys[0], e[keys[0]]) then
        ConsSorted(keys[0], t);
        [keys[0]] + t
      else t
  }

  /**
    Two sorted sequences holding the same keys are equal: the visiting order of
    a registry is determined by its set of names alone.
   */
  lemma {:induction false} SortedUnique(a: seq<string>, b: seq<string>)
    requires StrictlySorted(a) && StrictlySorted(b)
    requires forall x :: x in a <==> x in b
    ensures a == b
    decreases |a|
  {
    if 0 < |a| {
      assert a[0] in b;
      assert 0 < |b|;
      TailSorted(a);
      TailSorted(b);
      assert a == [a[0]] + a[1..] && b == [b[0]] + b[1..];
      assert b[0] in a;
      if a[0] != b[0] {
        assert b[0] in a[1..];
        assert a[0] in b[1..];
        LessAsymmetric(a[0], b[0]);
        assert false;
      }
      forall x
        ensures x in a[1..] <==> x in b[1..]
      {
        assert x in a <==> x in b;
      }
      SortedUnique(a[1..], b[1..]);
    } else if 0 < |b| {
      HeadIn(b);
      assert false;
    }
  }
}

=== FILE: sorted_dict.dfy ===
/**
  The sorted dictionary the registry stores its sprites in, and the
  `RemoveAll` extension method defined over it.

  A dictionary is a finite map together with the sequence of its keys in
  ascending order; that sequence is the dictionary's enumeration order.
 */
module SortedDict {
  import opened Ordering

  datatype Dict<V> = Dict(entries: map<string, V>, order: seq<string>)

  /** The enumeration order lists exactly the keys, ascending, each once. */
  ghost predicate Valid<V>(d: Dict<V>) {
    && StrictlySorted(d.order)
    && forall k :: k in d.order <==> k in d.entries
  }

  function Empty<V>(): (d: Dict<V>)
    ensures Valid(d)
    ensures d.entries == map[]
  {
    Dict(map[], [])
  }

  /** `ContainsKey`. */
  predicate ContainsKey<V>(d: Dict<V>, k: string)
    ensures Valid(d) ==> (ContainsKey(d, k) <==> exists i :: 0 <= i < |d.order| && d.order[i] == k)
  {
    k in d.entries
  }

  /** `Add` of a key that is not present yet (the library throws otherwise). */
  function Add<V>(d: Dict<V>, k: string, v: V): (r: Dict<V>)
    requires Valid(d) && k !in d.entries
    ensures Valid(r)
    ensures r.entries == d.entries[k := v]
  {
    Dict(d.entries[k := v], Insert(d.order, k))
  }

  /**
    Replaces the value under a present key. This stands for mutating the
    stored object in place, which does not touch the dictionary's structure.
   */
  function Put<V>(d: Dict<V>, k: string, v: V): (r: Dict<V>)
    requires Valid(d) && k in d.entries
    ensures Valid(r)
    ensures r.entries == d.entries[k := v]
    ensures r.order == d.order
  {
    Dict(d.entries[k := v], d.order)
  }

  /** `Remove`: drops the key if present and is a no-op otherwise. */
  function Remove<V>(d: Dict<V>, k: string): (r: Dict<V>)
    requires Valid(d)
    ensures Valid(r)
    ensures r.entries == d.entries - {k}
    ensures k !in d.entries ==> r == d
  {
    if k in d.entries then Dict(d.entries - {k}, Without(d.order, k))
    else
      assert k !in d.order;
      assert d.entries - {k} == d.entries;
      d
  }

  /** `dict.Where(condition).ToList()`: the matching keys, in enumeration order. */
  function Where<V>(d: Dict<V>, cond: (string, V) -> bool): (r: seq<string>)
    requires Valid(d)
    ensures StrictlySorted(r)
    ensures forall k :: k in r <==> k in d.entries && cond(k, d.entries[k])
  {
    Select(d.entries, d.order, cond)
  }

  /** Removes the listed keys one after the other. */
  function RemoveKeys<V>(d: Dict<V>, ks: seq<string>): (r: Dict<V>)
    requires Valid(d)
    ensures Valid(r)
    ensures forall k :: k in r.entries <==> k in d.entries && k !in ks
    ensures forall k :: k in r.entries ==> r.entries[k] == d.entries[k]
    decreases |ks|
  {
    if |ks| == 0 then d
    else
      assert ks == [ks[0]] + ks[1..];
      RemoveKeys(Remove(d, ks[0]), ks[1..])
  }

  /**
    The `RemoveAll` extension method: snapshot the entries that satisfy `cond`,
    then remove their keys.
   */
  function RemoveAll<V>(d: Dict<V>, cond: (string, V) -> bool): (r: Dict<V>)
    requires Valid(d)
    ensures Valid(r)
    ensures forall k :: k in r.entries ==> !cond(k, r.entries[k])
    ensures forall k :: k in d.entries && !cond(k, d.entries[k]) ==> k in r.entries && r.entries[k] == d.entries[k]
    ensures r.entries.Keys <= d.entries.Keys
  {
    RemoveKeys(d, Where(d, cond))
  }

  /**
    Because matching is decided on a snapshot taken before any removal, the
    result is the plain filter of the original dictionary.
   */
  lemma RemoveAllIsFilter<V>(d: Dict<V>, cond: (string, V) -> bool)
    requires Valid(d)
    ensures RemoveAll(d, cond).entries == map k | k in d.entries && !cond(k, d.entries[k]) :: d.entries[k]
  {
  }

  /** A second `RemoveAll` with the same condition changes nothing. */
  lemma RemoveAllIdempotent<V>(d: Dict<V>, cond: (string, V) -> bool)
    requires Valid(d)
    ensures RemoveAll(RemoveAll(d, cond), cond) == RemoveAll(d, cond)
  {
    var once := RemoveAll(d, cond);
    var twice := RemoveAll(once, cond);
    assert twice.entries.Keys == once.entries.Keys;
    assert forall k :: k in once.entries ==> twice.entries[k] == once.entries[k];
    assert twice.entries == once.entries;
    SortedUnique(twice.order, once.order);
  }

  /** An always-true condition empties the dictionary. */
  lemma RemoveAllEverything<V>(d: Dict<V>, cond: (string, V) -> bool)
    requires Valid(d)
    requires forall k, v :: cond(k, v)
    ensures RemoveAll(d, cond) == Empty()
  {
    var r := RemoveAll(d, cond);
    assert r.entries == map[];
    SortedUnique(r.order, []);
  }
}

=== FILE: sprite.dfy ===
/**
  The sprite entity: a textured, positioned object that moves by its
  velocities on every update and submits one draw call when visible. An
  animated sprite is the same entity carrying an animation state; the two
  variants form a closed union, and `Rect`, `Update` and `Draw` dispatch on it
  as the original's virtual members do.
 */
module Sprites {
  import opened Options
  import opened Numerics
  import opened Geometry
  import opened Animation

  /** Of a texture only its identity and its integer size matter here. */
  datatype Texture = Texture(id: nat, width: nat, height: nat)

  /** A tint; its channels are copied into draw calls and never inspected. */
  datatype Color = Color(r: int, g: int, b: int, a: int)

  const White: Color := Color(255, 255, 255, 255)

  /** The flip flags; `FlipBoth` is the two flags combined. Copied into draw calls and never inspected. */
  datatype Effects = NoEffects | FlipHorizontally | FlipVertically | FlipBoth

  /** Identifies the registry a sprite was registered with. */
  type ManagerId = nat

  datatype Kind = Plain | Animated(anim: Animation)

  datatype Sprite = Sprite(
    name: string,
    tag: string,
    position: Vec,
    origin: Vec,
    rectangle: Rectangle,
    velocity: Vec,
    rotationVelocity: real,
    rotation: real,
    depth: real,
    scale: Vec,
    color: Color,
    visible: bool,
    effects: Effects,
    texture: Texture,
    manager: Option<ManagerId>,
    destroyNextFrame: bool,
    drawLate: bool,
    kind: Kind)

  const DefaultTag: string := "default"
  const DefaultDepth: real := 0.5

  /** The fields that no constructor takes as an argument, at their initial values. */
  predicate Unset(s: Sprite) {
    && s.tag == DefaultTag
    && s.rectangle == EmptyRect
    && s.velocity == Zero
    && s.rotationVelocity == 0.0
    && s.visible
    && s.effects == NoEffects
    && s.manager == None
    && !s.destroyNextFrame
    && !s.drawLate
  }

  /** `new Sprite(name, texture)`. */
  function NewSprite(name: string, texture: Texture): (s: Sprite)
    ensures s.name == name && s.texture == texture && s.kind == Plain && Unset(s)
    ensures s.position == Zero && s.origin == Zero && s.rotation == 0.0
    ensures s.depth == DefaultDepth && s.scale == One && s.color == White
    ensures Rect(s) == Rectangle(0, 0, texture.width, texture.height)
  {
    Sprite(name, DefaultTag, Zero, Zero, EmptyRect, Zero, 0.0, 0.0, DefaultDepth, One,
      White, true, NoEffects, texture, None, false, false, Plain)
  }

  /** `new Sprite(name, texture, position, colour, origin, rotation, scale, depth)`. */
  function NewSpriteWith(name: string, texture: Texture, position: Vec, color: Color,
                         origin: Vec, rotation: real, scale: Vec, depth: real): (s: Sprite)
    ensures s.name == name && s.texture == texture && s.kind == Plain && Unset(s)
    ensures s.position == position && s.color == color && s.origin == origin
    ensures s.rotation == rotation && s.scale == scale && s.depth == depth
    ensures Rect(s) == Rectangle(0, 0, texture.width, texture.height)
  {
    NewSprite(name, texture).(position := position, color := color, origin := origin,
      rotation := rotation, scale := scale, depth := depth)
  }

  /** `new AnimatedSprite(name, texture, frameCount, framesPerSec)`; nothing is validated. */
  function NewAnimatedSprite(name: string, texture: Texture, frameCount: int, framesPerSec: int): (s: Sprite)
    ensures s.name == name && s.texture == texture && Unset(s)
    ensures s.kind == Animated(Start(frameCount, framesPerSec))
    ensures s.position == Zero && s.origin == Zero && s.rotation == 0.0
    ensures s.depth == DefaultDepth && s.scale == One && s.color == White
    ensures Rect(s).width == 0
  {
    NewSprite(name, texture).(kind := Animated(Start(frameCount, framesPerSec)))
  }

  /** The animated constructor that also takes the transform and tint. */
  function NewAnimatedSpriteWith(name: string, texture: Texture, position: Vec, color: Color,
                                 origin: Vec, rotation: real, scale: Vec, depth: real,
                                 frameCount: int, framesPerSec: int): (s: Sprite)
    ensures s.name == name && s.texture == texture && Unset(s)
    ensures s.kind == Animated(Start(frameCount, framesPerSec))
    ensures s.position == position && s.color == color && s.origin == origin
    ensures s.rotation == rotation && s.scale == scale && s.depth == depth
    ensures Rect(s).width == 0
  {
    NewSpriteWith(name, texture, position, color, origin, rotation, scale, depth)
      .(kind := Animated(Start(frameCount, framesPerSec)))
  }

  /**
    The `Rect` property: the stored rectangle, or when that equals
    `Rectangle.Empty`, a rectangle at the origin as wide as the texture (a
    plain sprite) or as the last drawn frame column (an animated sprite).
   */
  function Rect(s: Sprite): (r: Rectangle)
    ensures s.rectangle != EmptyRect ==> r == s.rectangle
    ensures s.rectangle == EmptyRect ==> r.x == 0 && r.y == 0 && r.height == s.texture.height
  {
    if s.rectangle != EmptyRect then s.rectangle
    else match s.kind
      case Plain => Rectangle(0, 0, s.texture.width, s.texture.height)
      case Animated(a) => Rectangle(0, 0, a.frameWidth, s.texture.height)
  }

  /** The `Rect` setter stores the rectangle as given. */
  function SetRect(s: Sprite, rect: Rectangle): (r: Sprite)
    ensures r.(rectangle := s.rectangle) == s
    ensures rect != EmptyRect ==> Rect(r) == rect
  {
    s.(rectangle := rect)
  }

  /** Storing `Rectangle.Empty` brings back the derived rectangle. */
  lemma ClearedRectFallsBack(s: Sprite)
    ensures s.kind.Plain? ==> Rect(SetRect(s, EmptyRect)) == Rectangle(0, 0, s.texture.width, s.texture.height)
    ensures s.kind.Animated? ==> Rect(SetRect(s, EmptyRect)).width == s.kind.anim.frameWidth
  {
  }

  /** The base `Update`: add the velocities once, whatever the elapsed time. */
  function Move(s: Sprite): (r: Sprite)
    ensures r.rotation == s.rotation + s.rotationVelocity
    ensures r.position == Vec(s.position.x + s.velocity.x, s.position.y + s.velocity.y)
    ensures r.(rotation := s.rotation, position := s.position) == s
  {
    s.(rotation := s.rotation + s.rotationVelocity, position := Add(s.position, s.velocity))
  }

  /** An update is defined unless it advances an animation with no frames. */
  predicate UpdateDefined(s: Sprite, dt: real) {
    s.kind.Animated? ==> TickDefined(s.kind.anim, dt)
  }

  /**
    The virtual `Update`: a plain sprite moves; an animated sprite first steps
    its animation with the elapsed time and then moves the same way.
   */
  function Update(s: Sprite, dt: real): (r: Sprite)
    requires UpdateDefined(s, dt)
    ensures r.rotation == s.rotation + s.rotationVelocity
    ensures r.position == Vec(s.position.x + s.velocity.x, s.position.y + s.velocity.y)
    ensures s.kind.Plain? ==> r.(rotation := s.rotation, position := s.position) == s
    ensures s.kind.Animated? ==> r.kind == Animated(Tick(s.kind.anim, dt))
    ensures r.(rotation := s.rotation, position := s.position, kind := s.kind) == s
  {
    match s.kind
    case Plain => Move(s)
    case Animated(a) => Move(s.(kind := Animated(Tick(a, dt))))
  }

  /** A plain sprite's update does not depend on the elapsed time. */
  lemma PlainUpdateIgnoresTime(s: Sprite, dt1: real, dt2: real)
    requires s.kind.Plain?
    ensures Update(s, dt1) == Update(s, dt2)
  {
  }

  /** Pausing the animation does not stop the sprite from moving. */
  lemma PausedSpriteStillMoves(s: Sprite, dt: real)
    requires s.kind.Animated? && s.kind.anim.paused
    ensures Update(s, dt) == Move(s)
  {
  }

  /** The arguments of one `SpriteBatch.Draw` call. */
  datatype DrawRecord = DrawRecord(
    texture: Texture,
    position: Vec,
    source: Rectangle,
    color: Color,
    rotation: real,
    origin: Vec,
    scale: Vec,
    effects: Effects,
    depth: real)

  /** The sprite after drawing, and the draw call it made if any. */
  datatype Drawn = Drawn(sprite: Sprite, record: Option<DrawRecord>)

  /** A draw call for sprite `s` with source rectangle `source`. */
  function RecordOf(s: Sprite, source: Rectangle): DrawRecord {
    DrawRecord(s.texture, s.position, source, s.color, s.rotation, s.origin, s.scale, s.effects, s.depth)
  }

  /** Drawing is defined unless a visible animation has no frames to divide by. */
  predicate DrawDefined(s: Sprite) {
    s.visible && s.kind.Animated? ==> s.kind.anim.frameCount != 0
  }

  /**
    The virtual `Draw`. An invisible sprite draws nothing and changes nothing.
    A visible plain sprite submits its `Rect` as the source rectangle. A visible
    animated sprite records the column width `Texture.Width / frameCount` and
    submits the current frame's column.
   */
  function Draw(s: Sprite): (r: Drawn)
    requires DrawDefined(s)
    ensures r.record.Some? <==> s.visible
    ensures !s.visible ==> r.sprite == s
    ensures r.sprite.(kind := s.kind) == s
    ensures r.sprite.kind.Plain? <==> s.kind.Plain?
    ensures s.kind.Plain? ==> r.sprite == s
    ensures s.visible && s.kind.Plain? ==> r.record == Some(RecordOf(s, Rect(s)))
    ensures s.visible && s.kind.Animated? ==>
      && r.sprite.kind == Animated(s.kind.anim.(frameWidth := SliceWidth(s.kind.anim, s.texture.width)))
      && r.record == Some(RecordOf(s, SourceRect(s.kind.anim, s.texture.width, s.texture.height)))
  {
    if !s.visible then Drawn(s, None)
    else match s.kind
      case Plain => Drawn(s, Some(RecordOf(s, Rect(s))))
      case Animated(a) =>
        var fw := SliceWidth(a, s.texture.width);
        Drawn(s.(kind := Animated(a.(frameWidth := fw))),
              Some(RecordOf(s, SourceRect(a, s.texture.width, s.texture.height))))
  }

  /**
    After a visible animated sprite with no stored rectangle is drawn, `Rect`
    reports the size of the column just drawn; before its first draw it
    reports width 0.
   */
  lemma RectAfterDraw(s: Sprite)
    requires s.kind.Animated? && s.visible && s.rectangle == EmptyRect && DrawDefined(s)
    ensures Rect(Draw(s).sprite).width == Draw(s).record.value.source.width
    ensures Rect(Draw(s).sprite).height == Draw(s).record.value.source.height
  {
  }

  /** The rectangle a collision test uses: the truncated position and the `Rect` size. */
  function Bounds(s: Sprite): (r: Rectangle)
    ensures r.width == Rect(s).width && r.height == Rect(s).height
    ensures r.x == Truncate(s.position.x) && r.y == Truncate(s.position.y)
  {
    Rectangle(Truncate(s.position.x), Truncate(s.position.y), Rect(s).width, Rect(s).height)
  }

  /** `CollidesWith`: the two bounding rectangles overlap. */
  predicate CollidesWith(a: Sprite, b: Sprite)
    ensures CollidesWith(a, b) ==> 0 < Rect(a).width + Rect(b).width && 0 < Rect(a).height + Rect(b).height
  {
    Intersects(Bounds(a), Bounds(b))
  }

  /** Collision is symmetric: both rectangles are built the same way. */
  lemma CollidesWithSymmetric(a: Sprite, b: Sprite)
    ensures CollidesWith(a, b) == CollidesWith(b, a)
  {
  }

  /**
    Two animated sprites that were never drawn and have no stored rectangle
    report width 0 and cannot collide with each other.
   */
  lemma UndrawnAnimatedSpritesDoNotCollide(a: Sprite, b: Sprite)
    requires a.kind.Animated? && a.rectangle == EmptyRect && a.kind.anim.frameWidth == 0
    requires b.kind.Animated? && b.rectangle == EmptyRect && b.kind.anim.frameWidth == 0
    ensures !CollidesWith(a, b)
  {
  }
}

=== FILE: sprite_manager.dfy ===
/**
  The sprite registry: every sprite keyed by its unique name in a sorted
  dictionary, the per-frame update pass with deferred destruction, and the
  two-layer draw pass under a camera translation.
 */
module SpriteRegistry {
  import opened Options
  import opened Ordering
  import opened SortedDict
  import opened Sprites

  datatype SpriteManager = SpriteManager(
    id: ManagerId,
    sprites: Dict<Sprite>,
    cameraX: real,
    cameraY: real,
    manualDraw: bool,
    manualUpdate: bool)

  /** Every stored sprite is keyed by its own name and points back to this registry. */
  ghost predicate Owned(d: Dict<Sprite>, id: ManagerId) {
    && SortedDict.Valid(d)
    && forall k :: k in d.entries ==> d.entries[k].name == k && d.entries[k].manager == Some(id)
  }

  ghost predicate Valid(m: SpriteManager)
    ensures Valid(m) ==> SortedDict.Valid(m.sprites)
    ensures Valid(m) ==> forall i :: 0 <= i < |m.sprites.order| ==>
      m.sprites.order[i] in m.sprites.entries && m.sprites.entries[m.sprites.order[i]].name == m.sprites.order[i]
  {
    Owned(m.sprites, m.id)
  }

  /** A fresh registry: no sprites, camera at the origin, both passes automatic. */
  function NewManager(id: ManagerId): (m: SpriteManager)
    ensures Valid(m) && m.sprites.entries == map[]
    ensures !m.manualDraw && !m.manualUpdate && m.cameraX == 0.0 && m.cameraY == 0.0
  {
    SpriteManager(id, Empty(), 0.0, 0.0, false, false)
  }

  // ---------------------------------------------------------------------------
  // Creation, lookup and destruction
  // ---------------------------------------------------------------------------

  /**
    The outcome of a create call: the registry afterwards, the returned
    sprite (`None` for the original's null), and the sprite object the caller
    passed in as it is after the call.
   */
  datatype Creation = Creation(registry: SpriteManager, result: Option<Sprite>, argument: Sprite)

  /** `HasSprite`: whether a sprite is registered under the name. */
  predicate HasSprite(m: SpriteManager, name: string)
    ensures HasSprite(m, name) <==> name in m.sprites.entries
  {
    ContainsKey(m.sprites, name)
  }

  /**
    `CreateSprite(sprite)`: a sprite whose name is taken is refused with no
    change at all; otherwise it is added under its name and given the
    back-reference to this registry, and the registered sprite is returned.
   */
  function CreateSprite(m: SpriteManager, s: Sprite): (c: Creation)
    requires Valid(m)
    ensures Valid(c.registry)
    ensures HasSprite(m, s.name) ==> c == Creation(m, None, s)
    ensures !HasSprite(m, s.name) ==>
      && c.result == Some(c.argument)
      && c.argument == s.(manager := Some(m.id))
      && c.registry.sprites.entries == m.sprites.entries[s.name := c.argument]
      && c.registry.(sprites := m.sprites) == m
  {
    if HasSprite(m, s.name) then Creation(m, None, s)
    else
      var registered := s.(manager := Some(m.id));
      Creation(m.(sprites := Add(m.sprites, s.name, registered)), Some(registered), registered)
  }

  /**
    `CreateSprite(sprite, position)`: the position is written into the
    caller's sprite before the duplicate check, so it changes even when the
    creation is refused.
   */
  function CreateSpriteAt(m: SpriteManager, s: Sprite, position: Geometry.Vec): (c: Creation)
    requires Valid(m)
    ensures Valid(c.registry)
    ensures c.argument.position == position
    ensures HasSprite(m, s.name) ==> c == Creation(m, None, s.(position := position))
    ensures !HasSprite(m, s.name) ==>
      && c.result == Some(s.(position := position, manager := Some(m.id)))
      && c.registry.sprites.entries == m.sprites.entries[s.name := c.result.value]
  {
    CreateSprite(m, s.(position := position))
  }

  /** `CreateSprite(name, texture)`: construct a plain sprite and register it. */
  function CreateSpriteNamed(m: SpriteManager, name: string, texture: Texture): (c: Creation)
    requires Valid(m)
    ensures Valid(c.registry)
    ensures HasSprite(m, name) ==> c.registry == m && c.result == None
    ensures !HasSprite(m, name) ==>
      && c.result == Some(NewSprite(name, texture).(manager := Some(m.id)))
      && c.registry.sprites.entries == m.sprites.entries[name := c.result.value]
  {
    CreateSprite(m, NewSprite(name, texture))
  }

  /** `CreateSprite(name, texture, position)`. */
  function CreateSpriteNamedAt(m: SpriteManager, name: string, texture: Texture, position: Geometry.Vec): (c: Creation)
    requires Valid(m)
    ensures Valid(c.registry)
    ensures HasSprite(m, name) ==> c.registry == m && c.result == None
    ensures !HasSprite(m, name) ==>
      && c.result == Some(NewSprite(name, texture).(position := position, manager := Some(m.id)))
      && c.registry.sprites.entries == m.sprites.entries[name := c.result.value]
  {
    CreateSprite(m, NewSprite(name, texture).(position := position))
  }

  /** `GetSprite`: the sprite registered under the name, or `None`. */
  function GetSprite(m: SpriteManager, name: string): (r: Option<Sprite>)
    requires Valid(m)
    ensures r.Some? <==> HasSprite(m, name)
    ensures r.Some? ==> r.value == m.sprites.entries[name] && r.value.name == name
  {
    if HasSprite(m, name) then Some(m.sprites.entries[name]) else None
  }

  /** A created sprite can be looked up under its name; a refused one changes nothing. */
  lemma CreateThenGet(m: SpriteManager, s: Sprite)
    requires Valid(m)
    ensures var c := CreateSprite(m, s);
      GetSprite(c.registry, s.name) == (if HasSprite(m, s.name) then GetSprite(m, s.name) else c.result)
    ensures forall n :: n != s.name ==> GetSprite(CreateSprite(m, s).registry, n) == GetSprite(m, n)
  {
  }

  /** Creating the same name twice: the second call is refused and changes nothing. */
  lemma CreateTwiceRefused(m: SpriteManager, s: Sprite, t: Sprite)
    requires Valid(m) && s.name == t.name
    ensures var c := CreateSprite(m, s); CreateSprite(c.registry, t) == Creation(c.registry, None, t)
  {
  }

  /** `DestroySprite`: remove the name if it is registered; otherwise nothing happens. */
  function DestroySprite(m: SpriteManager, name: string): (r: SpriteManager)
    requires Valid(m)
    ensures Valid(r)
    ensures r.sprites.entries == m.sprites.entries - {name}
    ensures r.(sprites := m.sprites) == m
    ensures !HasSprite(m, name) ==> r == m
  {
    m.(sprites := Remove(m.sprites, name))
  }

  /** Destroying twice is destroying once. */
  lemma DestroyIdempotent(m: SpriteManager, name: string)
    requires Valid(m)
    ensures DestroySprite(DestroySprite(m, name), name) == DestroySprite(m, name)
  {
  }

  /** After a destroy the name is free again, and no other lookup changes. */
  lemma DestroyThenGet(m: SpriteManager, name: string, other: string)
    requires Valid(m)
    ensures GetSprite(DestroySprite(m, name), name) == None
    ensures other != name ==> GetSprite(DestroySprite(m, name), other) == GetSprite(m, other)
  {
  }

  function Everything(): (string, Sprite) -> bool {
    (k: string, s: Sprite) => true
  }

  /** `DestroyAllSprites`: `RemoveAll` with an always-true condition. */
  function DestroyAllSprites(m: SpriteManager): (r: SpriteManager)
    requires Valid(m)
    ensures Valid(r)
    ensures r.sprites == Empty()
    ensures r.(sprites := m.sprites) == m
  {
    RemoveAllEverything(m.sprites, Everything());
    m.(sprites := RemoveAll(m.sprites, Everything()))
  }

  // ---------------------------------------------------------------------------
  // Tag queries
  // ---------------------------------------------------------------------------

  function TagIs(tag: string): (string, Sprite) -> bool {
    (k: string, s: Sprite) => s.tag == tag
  }

  /** The sprites stored under `keys`, in that order. */
  function SpritesAt(d: Dict<Sprite>, keys: seq<string>): (r: seq<Sprite>)
    requires forall k :: k in keys ==> k in d.entries
    ensures |r| == |keys|
    ensures forall i :: 0 <= i < |keys| ==> r[i] == d.entries[keys[i]]
  {
    seq(|keys|, i requires 0 <= i < |keys| => d.entries[keys[i]])
  }

  /** The names of the sprites tagged `tag`, ascending. */
  function TaggedNames(m: SpriteManager, tag: string): (r: seq<string>)
    requires Valid(m)
    ensures StrictlySorted(r)
    ensures forall k :: k in r <==> k in m.sprites.entries && m.sprites.entries[k].tag == tag
  {
    Where(m.sprites, TagIs(tag))
  }

  /**
    `GetSpritesWithTag`: exactly the registered sprites whose tag equals
    `tag`, each once, in ascending order of name.
   */
  function GetSpritesWithTag(m: SpriteManager, tag: string): (r: seq<Sprite>)
    requires Valid(m)
    ensures forall s :: s in r <==> s in m.sprites.entries.Values && s.tag == tag
    ensures forall i, j :: 0 <= i < j < |r| ==> Less(r[i].name, r[j].name)
  {
    var names := TaggedNames(m, tag);
    var r := SpritesAt(m.sprites, names);
    forall s | s in m.sprites.entries.Values && s.tag == tag
      ensures s in r
    {
      var k :| k in m.sprites.entries && m.sprites.entries[k] == s;
      var i :| 0 <= i < |names| && names[i] == k;
      assert r[i] == s;
    }
    r
  }

  /** The first sprite of `keys`, in order, whose tag is `tag`. */
  function FirstTagged(d: Dict<Sprite>, keys: seq<string>, tag: string): (r: Option<Sprite>)
    requires forall k :: k in keys ==> k in d.entries
    decreases |keys|
  {
    if |keys| == 0 then None
    else if d.entries[keys[0]].tag == tag then Some(d.entries[keys[0]])
    else FirstTagged(d, keys[1..], tag)
  }

  lemma {:induction false} FirstTaggedIsFirstSelected(d: Dict<Sprite>, keys: seq<string>, tag: string)
    requires forall k :: k in keys ==> k in d.entries
    requires StrictlySorted(keys)
    ensures var sel := Select(d.entries, keys, TagIs(tag));
      FirstTagged(d, keys, tag) == (if |sel| == 0 then None else Some(d.entries[sel[0]]))
    decreases |keys|
  {
    if 0 < |keys| {
      TailSorted(keys);
      FirstTaggedIsFirstSelected(d, keys[1..], tag);
    }
  }

  /**
    `GetSpriteWithTag`: a scan of its own that stops at the first match; it
    returns the head of `GetSpritesWithTag`, or `None` when that is empty.
   */
  function GetSpriteWithTag(m: SpriteManager, tag: string): (r: Option<Sprite>)
    requires Valid(m)
    ensures r == (if |GetSpritesWithTag(m, tag)| == 0 then None else Some(GetSpritesWithTag(m, tag)[0]))
  {
    FirstTaggedIsFirstSelected(m.sprites, m.sprites.order, tag);
    FirstTagged(m.sprites, m.sprites.order, tag)
  }

  // ---------------------------------------------------------------------------
  // The update pass
  // ---------------------------------------------------------------------------

  /** The registry after an update pass and the names of the sprites updated, in order. */
  datatype UpdatePass = UpdatePass(registry: SpriteManager, visited: seq<string>)

  /** Every registered sprite can be updated by `dt` without dividing by zero. */
  ghost predicate Updatable(d: Dict<Sprite>, dt: real) {
    forall k :: k in d.entries ==> UpdateDefined(d.entries[k], dt)
  }

  /**
    `r` is what updating the sprites under `keys` makes of `d`: each of them is
    replaced by its update or, if the update asks for destruction, removed;
    every other entry is untouched.
   */
  ghost predicate UpdatedFrom(d: Dict<Sprite>, keys: seq<string>, dt: real, r: Dict<Sprite>)
    requires forall k :: k in keys ==> k in d.entries && UpdateDefined(d.entries[k], dt)
  {
    && (forall k :: k in keys ==> (k in r.entries <==> !Sprites.Update(d.entries[k], dt).destroyNextFrame))
    && (forall k :: k in keys && k in r.entries ==> r.entries[k] == Sprites.Update(d.entries[k], dt))
    && (forall k :: k !in keys ==> (k in r.entries <==> k in d.entries))
    && (forall k :: k !in keys && k in d.entries ==> r.entries[k] == d.entries[k])
  }

  /** The sprites under the rest of the names are untouched by the first iteration. */
  lemma UpdateRest(d: Dict<Sprite>, d2: Dict<Sprite>, keys: seq<string>, dt: real)
    requires StrictlySorted(keys) && 0 < |keys|
    requires forall k :: k in keys ==> k in d.entries
    requires UpdateDefined(d.entries[keys[0]], dt)
    requires var s := Sprites.Update(d.entries[keys[0]], dt);
      d2.entries == if s.destroyNextFrame then d.entries - {keys[0]} else d.entries[keys[0] := s]
    ensures StrictlySorted(keys[1..]) && keys[0] !in keys[1..]
    ensures forall j :: j in keys[1..] ==> j in d2.entries && d2.entries[j] == d.entries[j]
  {
    TailSorted(keys);
  }

  /** One step of the loop followed by the rest of it is the whole loop. */
  lemma UpdateStep(d: Dict<Sprite>, d2: Dict<Sprite>, keys: seq<string>, dt: real, r: Dict<Sprite>)
    requires 0 < |keys| && keys[0] !in keys[1..]
    requires forall k :: k in keys ==> k in d.entries && UpdateDefined(d.entries[k], dt)
    requires var s := Sprites.Update(d.entries[keys[0]], dt);
      d2.entries == if s.destroyNextFrame then d.entries - {keys[0]} else d.entries[keys[0] := s]
    requires forall k :: k in keys[1..] ==> k in d2.entries && UpdateDefined(d2.entries[k], dt)
    requires UpdatedFrom(d2, keys[1..], dt, r)
    ensures UpdatedFrom(d, keys, dt, r)
  {
    assert keys == [keys[0]] + keys[1..];
  }

  /**
    One iteration of the update loop: update the sprite stored under `k`,
    store it back, and destroy it by its own name if it asks for that.
   */
  function UpdateOne(d: Dict<Sprite>, id: ManagerId, k: string, dt: real): (r: Dict<Sprite>)
    requires Owned(d, id) && k in d.entries && UpdateDefined(d.entries[k], dt)
    ensures Owned(r, id)
    ensures var s := Sprites.Update(d.entries[k], dt);
      r.entries == if s.destroyNextFrame then d.entries - {k} else d.entries[k := s]
  {
    var s := Sprites.Update(d.entries[k], dt);
    var d1 := Put(d, k, s);
    if s.destroyNextFrame then Remove(d1, s.name) else d1
  }

  /**
    The update loop over a snapshot of names, each name taken in turn.
   */
  function UpdateEach(d: Dict<Sprite>, id: ManagerId, keys: seq<string>, dt: real): (p: (Dict<Sprite>, seq<string>))
    requires Owned(d, id)
    requires StrictlySorted(keys)
    requires forall k :: k in keys ==> k in d.entries && UpdateDefined(d.entries[k], dt)
    ensures Owned(p.0, id)
    ensures p.1 == keys
    ensures UpdatedFrom(d, keys, dt, p.0)
    decreases |keys|
  {
    if |keys| == 0 then (d, [])
    else
      TailSorted(keys);
      var k := keys[0];
      var d2 := UpdateOne(d, id, k, dt);
      UpdateRest(d, d2, keys, dt);
      assert keys == [k] + keys[1..];
      var rest := UpdateEach(d2, id, keys[1..], dt);
      UpdateStep(d, d2, keys, dt, rest.0);
      (rest.0, [k] + rest.1)
  }

  /** Updating under every key is the filter of the updated sprites by their flag. */
  lemma UpdatedAll(d: Dict<Sprite>, dt: real, r: Dict<Sprite>)
    requires SortedDict.Valid(d) && Updatable(d, dt)
    requires UpdatedFrom(d, d.order, dt, r)
    ensures r.entries ==
      map k | k in d.entries && !Sprites.Update(d.entries[k], dt).destroyNextFrame :: Sprites.Update(d.entries[k], dt)
  {
    var f := map k | k in d.entries && !Sprites.Update(d.entries[k], dt).destroyNextFrame :: Sprites.Update(d.entries[k], dt);
    assert r.entries.Keys == f.Keys;
    forall k | k in f
      ensures r.entries[k] == f[k]
    {
      assert k in d.order;
    }
  }

  /**
    `UpdateSprites`, iterating a snapshot of the names: every sprite present
    at the start is updated exactly once, in ascending name order, and
    afterwards the registry holds exactly the updated sprites that did not ask
    to be destroyed.
   */
  function UpdateSprites(m: SpriteManager, dt: real): (u: UpdatePass)
    requires Valid(m) && Updatable(m.sprites, dt)
    ensures Valid(u.registry)
    ensures u.registry.(sprites := m.sprites) == m
    ensures StrictlySorted(u.visited)
    ensures forall k :: k in u.visited <==> k in m.sprites.entries
    ensures u.registry.sprites.entries ==
      map k | k in m.sprites.entries && !Sprites.Update(m.sprites.entries[k], dt).destroyNextFrame
        :: Sprites.Update(m.sprites.entries[k], dt)
  {
    var p := UpdateEach(m.sprites, m.id, m.sprites.order, dt);
    UpdatedAll(m.sprites, dt, p.0);
    UpdatePass(m.(sprites := p.0), p.1)
  }

  /** The automatic `Update`: nothing at all happens in manual-update mode. */
  function Update(m: SpriteManager, dt: real): (u: UpdatePass)
    requires Valid(m) && (!m.manualUpdate ==> Updatable(m.sprites, dt))
    ensures Valid(u.registry)
    ensures m.manualUpdate ==> u == UpdatePass(m, [])
    ensures !m.manualUpdate ==> u == UpdateSprites(m, dt)
  {
    if m.manualUpdate then UpdatePass(m, []) else UpdateSprites(m, dt)
  }

  /** A sprite flagged for destruction gets its last update and is gone afterwards. */
  lemma DestroyedAfterLastUpdate(m: SpriteManager, dt: real, name: string)
    requires Valid(m) && Updatable(m.sprites, dt) && HasSprite(m, name)
    requires Sprites.Update(m.sprites.entries[name], dt).destroyNextFrame
    ensures name in UpdateSprites(m, dt).visited
    ensures !HasSprite(UpdateSprites(m, dt).registry, name)
  {
  }

  // ---------------------------------------------------------------------------
  // The draw pass
  // ---------------------------------------------------------------------------

  /** One sprite asked to draw, and the draw call it made if it was visible. */
  datatype DrawCall = DrawCall(name: string, record: Option<DrawRecord>)

  function Names(calls: seq<DrawCall>): (r: seq<string>)
    ensures |r| == |calls|
    ensures forall i :: 0 <= i < |calls| ==> r[i] == calls[i].name
  {
    seq(|calls|, i requires 0 <= i < |calls| => calls[i].name)
  }

  function InLayer(late: bool): (string, Sprite) -> bool {
    (k: string, s: Sprite) => s.drawLate == late
  }

  /** Every registered sprite can be drawn without dividing by zero. */
  ghost predicate Drawable(d: Dict<Sprite>) {
    forall k :: k in d.entries ==> DrawDefined(d.entries[k])
  }

  /** Every registered sprite of one layer can be drawn without dividing by zero. */
  ghost predicate LayerDrawable(d: Dict<Sprite>, late: bool) {
    forall k :: k in d.entries && d.entries[k].drawLate == late ==> DrawDefined(d.entries[k])
  }

  /** The whole registry can be drawn exactly when each of its two layers can. */
  lemma DrawableLayers(d: Dict<Sprite>)
    ensures Drawable(d) <==> LayerDrawable(d, false) && LayerDrawable(d, true)
  {
  }

  /**
    `r` and `calls` are what drawing the sprites of one layer under `keys`
    makes of `d`: one call per sprite of the layer, in the order of `keys`,
    carrying that sprite's own draw; each of those sprites is replaced by the
    sprite its draw leaves behind, and every other entry is untouched.
   */
  ghost predicate DrawnFrom(d: Dict<Sprite>, keys: seq<string>, late: bool, r: Dict<Sprite>, calls: seq<DrawCall>)
    requires StrictlySorted(keys)
    requires forall k :: k in keys ==> k in d.entries && (d.entries[k].drawLate == late ==> DrawDefined(d.entries[k]))
  {
    && r.order == d.order && r.entries.Keys == d.entries.Keys
    && Names(calls) == Select(d.entries, keys, InLayer(late))
    && (forall i :: 0 <= i < |calls| ==>
          && calls[i].name in keys && d.entries[calls[i].name].drawLate == late
          && calls[i].record == Sprites.Draw(d.entries[calls[i].name]).record)
    && (forall k :: k in keys && d.entries[k].drawLate == late ==> r.entries[k] == Sprites.Draw(d.entries[k]).sprite)
    && (forall k :: k in d.entries && !(k in keys && d.entries[k].drawLate == late) ==> r.entries[k] == d.entries[k])
  }

  lemma NamesCons(c: DrawCall, rest: seq<DrawCall>)
    ensures Names([c] + rest) == [c.name] + Names(rest)
  {
    assert forall i :: 0 < i < |rest| + 1 ==> ([c] + rest)[i] == rest[i - 1];
  }

  lemma SelectHead(e: map<string, Sprite>, keys: seq<string>, late: bool)
    requires StrictlySorted(keys) && 0 < |keys|
    requires forall k :: k in keys ==> k in e
    requires e[keys[0]].drawLate == late
    ensures StrictlySorted(keys[1..])
    ensures Select(e, keys, InLayer(late)) == [keys[0]] + Select(e, keys[1..], InLayer(late))
  {
    TailSorted(keys);
  }

  /** The names drawn by a step followed by the rest of the layer. */
  lemma DrawStepNames(d: Dict<Sprite>, d2: Dict<Sprite>, keys: seq<string>, late: bool, rest: seq<DrawCall>, c: DrawCall)
    requires StrictlySorted(keys) && 0 < |keys| && c.name == keys[0]
    requires forall k :: k in keys ==> k in d.entries && k in d2.entries && d2.entries[k].drawLate == d.entries[k].drawLate
    requires d.entries[keys[0]].drawLate == late
    requires Names(rest) == Select(d2.entries, keys[1..], InLayer(late))
    ensures Names([c] + rest) == Select(d.entries, keys, InLayer(late))
  {
    SelectSameFlags(d2.entries, d.entries, keys[1..], late);
    SelectHead(d.entries, keys, late);
    NamesCons(c, rest);
  }

  /** The first key is drawn and stored back, then the rest of the layer is drawn. */
  lemma DrawStep(d: Dict<Sprite>, d2: Dict<Sprite>, keys: seq<string>, late: bool, r: Dict<Sprite>, rest: seq<DrawCall>)
    requires StrictlySorted(keys) && 0 < |keys|
    requires forall k :: k in keys ==> k in d.entries && (d.entries[k].drawLate == late ==> DrawDefined(d.entries[k]))
    requires d.entries[keys[0]].drawLate == late
    requires d2.order == d.order
    requires d2.entries == d.entries[keys[0] := Sprites.Draw(d.entries[keys[0]]).sprite]
    requires forall k :: k in keys[1..] ==> k in d2.entries && (d2.entries[k].drawLate == late ==> DrawDefined(d2.entries[k]))
    requires DrawnFrom(d2, keys[1..], late, r, rest)
    ensures DrawnFrom(d, keys, late, r, [DrawCall(keys[0], Sprites.Draw(d.entries[keys[0]]).record)] + rest)
  {
    var k := keys[0];
    var c := DrawCall(k, Sprites.Draw(d.entries[k]).record);
    TailSorted(keys);
    assert keys == [k] + keys[1..];
    assert d2.entries[k].drawLate == d.entries[k].drawLate;
    DrawStepNames(d, d2, keys, late, rest, c);
    DrawStepRecords(d, d2, keys, late, rest, c);
    assert r.entries.Keys == d.entries.Keys by {
      assert d2.entries.Keys == d.entries.Keys;
    }
    forall j | j in keys && d.entries[j].drawLate == late
      ensures r.entries[j] == Sprites.Draw(d.entries[j]).sprite
    {
      if j != k {
        assert j in keys[1..];
      }
    }
  }

  /** The call of the first name, then the calls of the rest, each carry their sprite's own draw. */
  lemma DrawStepRecords(d: Dict<Sprite>, d2: Dict<Sprite>, keys: seq<string>, late: bool, rest: seq<DrawCall>, c: DrawCall)
    requires 0 < |keys| && keys[0] !in keys[1..]
    requires forall k :: k in keys ==> k in d.entries && (d.entries[k].drawLate == late ==> DrawDefined(d.entries[k]))
    requires d.entries[keys[0]].drawLate == late
    requires c == DrawCall(keys[0], Sprites.Draw(d.entries[keys[0]]).record)
    requires d2.entries == d.entries[keys[0] := Sprites.Draw(d.entries[keys[0]]).sprite]
    requires forall i :: 0 <= i < |rest| ==>
      && rest[i].name in keys[1..] && d2.entries[rest[i].name].drawLate == late
      && rest[i].record == Sprites.Draw(d2.entries[rest[i].name]).record
    ensures forall i :: 0 <= i < |[c] + rest| ==>
      && ([c] + rest)[i].name in keys && d.entries[([c] + rest)[i].name].drawLate == late
      && ([c] + rest)[i].record == Sprites.Draw(d.entries[([c] + rest)[i].name]).record
  {
    var calls := [c] + rest;
    forall i | 0 <= i < |calls|
      ensures calls[i].name in keys && d.entries[calls[i].name].drawLate == late
      ensures calls[i].record == Sprites.Draw(d.entries[calls[i].name]).record
    {
      if 0 < i {
        assert calls[i] == rest[i - 1];
        assert calls[i].name in keys[1..];
      }
    }
  }

  /** A sprite of the other layer is passed over. */
  lemma SkipStep(d: Dict<Sprite>, keys: seq<string>, late: bool, r: Dict<Sprite>, calls: seq<DrawCall>)
    requires StrictlySorted(keys) && 0 < |keys|
    requires forall k :: k in keys ==> k in d.entries && (d.entries[k].drawLate == late ==> DrawDefined(d.entries[k]))
    requires d.entries[keys[0]].drawLate != late
    requires StrictlySorted(keys[1..])
    requires DrawnFrom(d, keys[1..], late, r, calls)
    ensures DrawnFrom(d, keys, late, r, calls)
  {
    assert keys == [keys[0]] + keys[1..];
  }

  /** Storing back a drawn sprite keeps each layer, and the whole registry, drawable. */
  lemma DrawnKeepsLayers(d: Dict<Sprite>, k: string)
    requires SortedDict.Valid(d) && k in d.entries && DrawDefined(d.entries[k])
    ensures var d2 := Put(d, k, Sprites.Draw(d.entries[k]).sprite);
      && d2.entries[k].drawLate == d.entries[k].drawLate
      && (forall l :: LayerDrawable(d, l) ==> LayerDrawable(d2, l))
      && (Drawable(d) ==> Drawable(d2))
  {
  }

  /**
    One draw layer: walk `keys` in order and let every sprite of the layer
    draw itself, storing back the drawn sprite.
   */
  function DrawEach(d: Dict<Sprite>, id: ManagerId, keys: seq<string>, late: bool): (p: (Dict<Sprite>, seq<DrawCall>))
    requires Owned(d, id) && LayerDrawable(d, late)
    requires StrictlySorted(keys)
    requires forall k :: k in keys ==> k in d.entries
    ensures Owned(p.0, id)
    ensures forall l :: LayerDrawable(d, l) ==> LayerDrawable(p.0, l)
    ensures Drawable(d) ==> Drawable(p.0)
    ensures DrawnFrom(d, keys, late, p.0, p.1)
    decreases |keys|
  {
    if |keys| == 0 then (d, [])
    else
      TailSorted(keys);
      var k := keys[0];
      var s := d.entries[k];
      if s.drawLate == late then
        var drawn := Sprites.Draw(s);
        var d2 := Put(d, k, drawn.sprite);
        DrawnKeepsLayers(d, k);
        var rest := DrawEach(d2, id, keys[1..], late);
        DrawStep(d, d2, keys, late, rest.0, rest.1);
        (rest.0, [DrawCall(k, drawn.record)] + rest.1)
      else
        var rest := DrawEach(d, id, keys[1..], late);
        SkipStep(d, keys, late, rest.0, rest.1);
        rest
  }

  /** `DrawSprites`: the sprites that are not drawn late, in ascending name order. */
  function DrawSprites(m: SpriteManager): (p: (SpriteManager, seq<DrawCall>))
    requires Valid(m) && LayerDrawable(m.sprites, false)
    ensures Valid(p.0)
    ensures forall l :: LayerDrawable(m.sprites, l) ==> LayerDrawable(p.0.sprites, l)
    ensures Drawable(m.sprites) ==> Drawable(p.0.sprites)
    ensures p.0.(sprites := m.sprites) == m
    ensures DrawnFrom(m.sprites, m.sprites.order, false, p.0.sprites, p.1)
  {
    var p := DrawEach(m.sprites, m.id, m.sprites.order, false);
    (m.(sprites := p.0), p.1)
  }

  /** `DrawSpritesLate`: the sprites that are drawn late, in ascending name order. */
  function DrawSpritesLate(m: SpriteManager): (p: (SpriteManager, seq<DrawCall>))
    requires Valid(m) && LayerDrawable(m.sprites, true)
    ensures Valid(p.0)
    ensures forall l :: LayerDrawable(m.sprites, l) ==> LayerDrawable(p.0.sprites, l)
    ensures Drawable(m.sprites) ==> Drawable(p.0.sprites)
    ensures p.0.(sprites := m.sprites) == m
    ensures DrawnFrom(m.sprites, m.sprites.order, true, p.0.sprites, p.1)
  {
    var p := DrawEach(m.sprites, m.id, m.sprites.order, true);
    (m.(sprites := p.0), p.1)
  }

  /** One render batch: the camera translation it was begun with and the calls in it. */
  datatype Batch = Batch(translateX: real, translateY: real, calls: seq<DrawCall>)

  datatype DrawOutcome = DrawOutcome(registry: SpriteManager, batch: Option<Batch>)

  /**
    The automatic `Draw`: unless in manual-draw mode, begin a batch translated
    by the negated camera position, draw the normal layer, then the late
    layer, and end the batch.
   */
  function Draw(m: SpriteManager): (o: DrawOutcome)
    requires Valid(m) && (!m.manualDraw ==> Drawable(m.sprites))
    ensures Valid(o.registry)
    ensures o.registry.(sprites := m.sprites) == m
    ensures m.manualDraw ==> o == DrawOutcome(m, None)
    ensures !m.manualDraw ==>
      (o.batch.Some? && o.batch.value.translateX == -m.cameraX && o.batch.value.translateY == -m.cameraY)
  {
    if m.manualDraw then DrawOutcome(m, None)
    else
      var first := DrawSprites(m);
      var second := DrawSpritesLate(first.0);
      DrawOutcome(second.0, Some(Batch(-m.cameraX, -m.cameraY, first.1 + second.1)))
  }

  /** The names each layer asks to draw, in ascending order. */
  function Layer(m: SpriteManager, late: bool): (r: seq<string>)
    requires Valid(m)
    ensures StrictlySorted(r)
    ensures forall k :: k in r <==> k in m.sprites.entries && m.sprites.entries[k].drawLate == late
  {
    Where(m.sprites, InLayer(late))
  }

  lemma {:induction false} SelectSameFlags(e1: map<string, Sprite>, e2: map<string, Sprite>, keys: seq<string>, late: bool)
    requires StrictlySorted(keys)
    requires forall k :: k in keys ==> k in e1 && k in e2 && e1[k].drawLate == e2[k].drawLate
    ensures Select(e1, keys, InLayer(late)) == Select(e2, keys, InLayer(late))
    decreases |keys|
  {
    if 0 < |keys| {
      TailSorted(keys);
      SelectSameFlags(e1, e2, keys[1..], late);
    }
  }

  lemma {:induction false} LayersPartition(e: map<string, Sprite>, keys: seq<string>)
    requires StrictlySorted(keys)
    requires forall k :: k in keys ==> k in e
    ensures multiset(Select(e, keys, InLayer(false))) + multiset(Select(e, keys, InLayer(true))) == multiset(keys)
    decreases |keys|
  {
    if 0 < |keys| {
      TailSorted(keys);
      var k, rest := keys[0], keys[1..];
      LayersPartition(e, rest);
      assert keys == [k] + rest;
      var late := e[k].drawLate;
      assert Select(e, keys, InLayer(late)) == [k] + Select(e, rest, InLayer(late));
      assert Select(e, keys, InLayer(!late)) == Select(e, rest, InLayer(!late));
    }
  }

  /**
    `calls` asks exactly the sprites of one layer of `d` to draw, in ascending
    name order, each with the draw it makes on its own.
   */
  ghost predicate LayerCalls(d: Dict<Sprite>, late: bool, calls: seq<DrawCall>)
    requires SortedDict.Valid(d) && Drawable(d)
  {
    && Names(calls) == Select(d.entries, d.order, InLayer(late))
    && forall i :: 0 <= i < |calls| ==>
         calls[i].name in d.entries && calls[i].record == Sprites.Draw(d.entries[calls[i].name]).record
  }

  lemma NamesAppend(a: seq<DrawCall>, b: seq<DrawCall>)
    ensures Names(a + b) == Names(a) + Names(b)
  {
  }

  /** Drawing one layer leaves every sprite's layer flag as it was. */
  lemma LayerKeepsFlags(d: Dict<Sprite>, late: bool, r: Dict<Sprite>, calls: seq<DrawCall>)
    requires SortedDict.Valid(d) && Drawable(d)
    requires DrawnFrom(d, d.order, late, r, calls)
    ensures forall k :: k in d.entries ==> k in r.entries && r.entries[k].drawLate == d.entries[k].drawLate
  {
    forall k | k in d.entries
      ensures k in r.entries && r.entries[k].drawLate == d.entries[k].drawLate
    {
      if k in d.order && d.entries[k].drawLate == late {
        assert r.entries[k] == Sprites.Draw(d.entries[k]).sprite;
      }
    }
  }

  /**
    The late layer is drawn from the registry the first layer left behind,
    but that layer only touched sprites that are not drawn late, so the late
    layer's calls are those the original registry would make.
   */
  lemma SecondLayer(d: Dict<Sprite>, r: Dict<Sprite>, first: seq<DrawCall>, r2: Dict<Sprite>, calls: seq<DrawCall>)
    requires SortedDict.Valid(d) && Drawable(d) && Drawable(r)
    requires DrawnFrom(d, d.order, false, r, first)
    requires forall k :: k in d.order ==> k in r.entries
    requires DrawnFrom(r, d.order, true, r2, calls)
    ensures LayerCalls(d, true, calls)
  {
    LayerKeepsFlags(d, false, r, first);
    SelectSameFlags(r.entries, d.entries, d.order, true);
    forall i | 0 <= i < |calls|
      ensures calls[i].name in d.entries && calls[i].record == Sprites.Draw(d.entries[calls[i].name]).record
    {
      var k := calls[i].name;
      assert Names(calls)[i] == k;
      assert d.entries[k].drawLate;
    }
  }

  /** The two layers of an automatic draw pass. */
  lemma TwoLayers(m: SpriteManager)
    requires Valid(m) && Drawable(m.sprites) && !m.manualDraw
    ensures var first := DrawEach(m.sprites, m.id, m.sprites.order, false);
      var second := DrawEach(first.0, m.id, m.sprites.order, true);
      && Draw(m).batch.value.calls == first.1 + second.1
      && LayerCalls(m.sprites, false, first.1)
      && LayerCalls(m.sprites, true, second.1)
  {
    var d := m.sprites;
    var first := DrawEach(d, m.id, d.order, false);
    var second := DrawEach(first.0, m.id, d.order, true);
    SecondLayer(d, first.0, first.1, second.0, second.1);
  }

  /** Calls of the two layers, one after the other, each carry their sprite's own draw. */
  lemma RecordsAppend(d: Dict<Sprite>, a: seq<DrawCall>, b: seq<DrawCall>)
    requires SortedDict.Valid(d) && Drawable(d)
    requires LayerCalls(d, false, a) && LayerCalls(d, true, b)
    ensures forall i :: 0 <= i < |a + b| ==>
      (a + b)[i].name in d.entries && (a + b)[i].record == Sprites.Draw(d.entries[(a + b)[i].name]).record
  {
    var calls := a + b;
    forall i | 0 <= i < |calls|
      ensures calls[i].name in d.entries && calls[i].record == Sprites.Draw(d.entries[calls[i].name]).record
    {
      if i < |a| {
        assert calls[i] == a[i];
      } else {
        assert calls[i] == b[i - |a|];
      }
    }
  }

  /**
    The draw pass in automatic mode asks every registered sprite to draw
    exactly once: first every sprite that is not drawn late, then every late
    one, each layer in ascending name order.
   */
  lemma DrawPassOrder(m: SpriteManager)
    requires Valid(m) && Drawable(m.sprites) && !m.manualDraw
    ensures Names(Draw(m).batch.value.calls) == Layer(m, false) + Layer(m, true)
    ensures multiset(Names(Draw(m).batch.value.calls)) == multiset(m.sprites.order)
  {
    var first := DrawEach(m.sprites, m.id, m.sprites.order, false);
    var second := DrawEach(first.0, m.id, m.sprites.order, true);
    TwoLayers(m);
    NamesAppend(first.1, second.1);
    LayersPartition(m.sprites.entries, m.sprites.order);
  }

  /** Each call of the draw pass carries the draw the sprite makes on its own. */
  lemma DrawPassRecords(m: SpriteManager)
    requires Valid(m) && Drawable(m.sprites) && !m.manualDraw
    ensures var calls := Draw(m).batch.value.calls;
      forall i :: 0 <= i < |calls| ==>
        calls[i].name in m.sprites.entries && calls[i].record == Sprites.Draw(m.sprites.entries[calls[i].name]).record
  {
    var first := DrawEach(m.sprites, m.id, m.sprites.order, false);
    var second := DrawEach(first.0, m.id, m.sprites.order, true);
    TwoLayers(m);
    RecordsAppend(m.sprites, first.1, second.1);
  }

  /** No sprite drawn late is drawn before a sprite that is not. */
  lemma DrawPassLateLast(m: SpriteManager)
    requires Valid(m) && Drawable(m.sprites) && !m.manualDraw
    ensures var calls := Draw(m).batch.value.calls;
      forall i, j :: 0 <= i < j < |calls| && !m.sprites.entries[calls[j].name].drawLate
        ==> calls[i].name in m.sprites.entries && !m.sprites.entries[calls[i].name].drawLate
  {
    var d := m.sprites;
    DrawPassOrder(m);
    DrawPassRecords(m);
    var calls := Draw(m).batch.value.calls;
    var late := Layer(m, true);
    var early := Layer(m, false);
    forall i, j | 0 <= i < j < |calls| && !d.entries[calls[j].name].drawLate
      ensures calls[i].name in d.entries && !d.entries[calls[i].name].drawLate
    {
      assert Names(calls)[j] == calls[j].name;
      assert Names(calls)[i] == calls[i].name;
      assert calls[i].name == early[i];
      assert calls[i].name in early;
    }
  }

  /** After a draw pass every sprite is the one its own `Draw` left behind. */
  lemma DrawPassState(m: SpriteManager)
    requires Valid(m) && Drawable(m.sprites) && !m.manualDraw
    ensures Draw(m).registry.(sprites := m.sprites) == m
    ensures Draw(m).registry.sprites.order == m.sprites.order
    ensures forall k :: k in m.sprites.entries ==>
      k in Draw(m).registry.sprites.entries && Draw(m).registry.sprites.entries[k] == Sprites.Draw(m.sprites.entries[k]).sprite
  {
  }
}

=== FILE: update_as_written.dfy ===
/**
  The update pass as the original writes it: a `foreach` over the live sorted
  dictionary that removes a sprite from that same dictionary when the sprite
  asks for destruction.

  A sorted dictionary's enumerator is invalidated by any change to the
  dictionary: the next `MoveNext` after a removal throws
  `InvalidOperationException`, even when the removed key was the last one. So
  the loop as written ends with that exception right after the first
  destruction, leaving the sprites after it un-updated. The rest of the model
  uses `SpriteRegistry.UpdateSprites`, which walks a snapshot of the names.
 */
module UpdateAsWritten {
  import opened Options
  import opened Geometry
  import opened Ordering
  import SortedDict
  import opened Sprites
  import opened SpriteRegistry

  /**
    How the loop ended: normally, or by the enumerator throwing. Either way
    the registry is left as the loop made it and `visited` lists the sprites
    that were updated.
   */
  datatype LiveOutcome =
    | Finished(registry: SpriteManager, visited: seq<string>)
    | Invalidated(registry: SpriteManager, visited: seq<string>)

  /** Some sprite under `keys` asks to be destroyed once updated. */
  ghost predicate SomeFlagged(d: SortedDict.Dict<Sprite>, keys: seq<string>, dt: real)
    requires forall k :: k in keys ==> k in d.entries && UpdateDefined(d.entries[k], dt)
  {
    exists k :: k in keys && Sprites.Update(d.entries[k], dt).destroyNextFrame
  }

  /**
    The live loop can update every sprite it reaches: each one up to and
    including the first that asks to be destroyed. Sprites after that one are
    never touched, so nothing is demanded of them.
   */
  ghost predicate Reached(d: SortedDict.Dict<Sprite>, keys: seq<string>, dt: real)
    requires forall k :: k in keys ==> k in d.entries
    decreases |keys|
  {
    || |keys| == 0
    || (&& UpdateDefined(d.entries[keys[0]], dt)
        && (Sprites.Update(d.entries[keys[0]], dt).destroyNextFrame || Reached(d, keys[1..], dt)))
  }

  /**
    The position in `keys` of the first sprite that asks to be destroyed, or
    `|keys|` when none does.
   */
  ghost function FirstFlagged(d: SortedDict.Dict<Sprite>, keys: seq<string>, dt: real): (i: nat)
    requires forall k :: k in keys ==> k in d.entries
    requires Reached(d, keys, dt)
    ensures i <= |keys|
    ensures forall j :: 0 <= j < i ==>
      UpdateDefined(d.entries[keys[j]], dt) && !Sprites.Update(d.entries[keys[j]], dt).destroyNextFrame
    ensures i < |keys| ==>
      UpdateDefined(d.entries[keys[i]], dt) && Sprites.Update(d.entries[keys[i]], dt).destroyNextFrame
    decreases |keys|
  {
    if |keys| == 0 then 0
    else if Sprites.Update(d.entries[keys[0]], dt).destroyNextFrame then 0
    else
      var t := FirstFlagged(d, keys[1..], dt);
      assert forall j :: 0 < j <= t ==> keys[j] == keys[1..][j - 1];
      1 + t
  }

  /** A loop that can update every sprite can in particular update those it reaches. */
  lemma {:induction false} UpdatableReached(d: SortedDict.Dict<Sprite>, keys: seq<string>, dt: real)
    requires forall k :: k in keys ==> k in d.entries && UpdateDefined(d.entries[k], dt)
    ensures Reached(d, keys, dt)
    ensures FirstFlagged(d, keys, dt) < |keys| <==> SomeFlagged(d, keys, dt)
    decreases |keys|
  {
    if 0 < |keys| {
      assert keys[0] in keys;
      assert forall j :: j in keys[1..] ==> j in keys;
      UpdatableReached(d, keys[1..], dt);
      assert SomeFlagged(d, keys, dt) <==>
        Sprites.Update(d.entries[keys[0]], dt).destroyNextFrame || SomeFlagged(d, keys[1..], dt) by {
        assert keys == [keys[0]] + keys[1..];
      }
    }
  }

  /** When every sprite can be updated, the first flagged one exists iff some sprite is flagged. */
  lemma FlaggedWhenUpdatable(d: SortedDict.Dict<Sprite>, keys: seq<string>, dt: real)
    requires forall k :: k in keys ==> k in d.entries
    requires Reached(d, keys, dt)
    ensures (forall k :: k in keys ==> UpdateDefined(d.entries[k], dt)) ==>
      (FirstFlagged(d, keys, dt) < |keys| <==> SomeFlagged(d, keys, dt))
  {
    if forall k :: k in keys ==> UpdateDefined(d.entries[k], dt) {
      UpdatableReached(d, keys, dt);
    }
  }

  /** Reachability only looks at the sprites under `keys`. */
  lemma {:induction false} ReachedAgree(d: SortedDict.Dict<Sprite>, d2: SortedDict.Dict<Sprite>, keys: seq<string>, dt: real)
    requires forall k :: k in keys ==> k in d.entries && k in d2.entries && d2.entries[k] == d.entries[k]
    ensures Reached(d, keys, dt) == Reached(d2, keys, dt)
    ensures Reached(d, keys, dt) ==> FirstFlagged(d, keys, dt) == FirstFlagged(d2, keys, dt)
    decreases |keys|
  {
    if 0 < |keys| {
      assert keys[0] in keys;
      assert forall j :: j in keys[1..] ==> j in keys;
      ReachedAgree(d, d2, keys[1..], dt);
    }
  }

  /**
    The live loop over `keys`. Until the first removal the dictionary keeps
    every key, so the live enumeration visits the same names as the snapshot;
    the flag in the result says the enumerator was invalidated.
   */
  function LiveEach(d: SortedDict.Dict<Sprite>, id: ManagerId, keys: seq<string>, dt: real): (o: (SortedDict.Dict<Sprite>, seq<string>, bool))
    requires Owned(d, id)
    requires StrictlySorted(keys)
    requires forall k :: k in keys ==> k in d.entries
    requires Reached(d, keys, dt)
    ensures Owned(o.0, id)
    ensures |o.1| <= |keys| && o.1 == keys[..|o.1|]
    decreases |keys|
  {
    if |keys| == 0 then (d, [], false)
    else
      TailSorted(keys);
      var k := keys[0];
      var d2 := UpdateOne(d, id, k, dt);
      if Sprites.Update(d.entries[k], dt).destroyNextFrame then
        assert [k] == keys[..1];
        (d2, [k], true)
      else
        UpdateRest(d, d2, keys, dt);
        ReachedAgree(d, d2, keys[1..], dt);
        assert Reached(d, keys[1..], dt);
        var rest := LiveEach(d2, id, keys[1..], dt);
        PrefixOfTail(keys, rest.1);
        (rest.0, [k] + rest.1, rest.2)
  }

  /**
    The live loop visits exactly the names up to and including the first
    sprite that asks to be destroyed, and is invalidated exactly when there is
    one. (`LiveEach` already says the visited names are a prefix of `keys`.)
   */
  lemma {:induction false} LiveStopsAtFirst(d: SortedDict.Dict<Sprite>, id: ManagerId, keys: seq<string>, dt: real)
    requires Owned(d, id)
    requires StrictlySorted(keys)
    requires forall k :: k in keys ==> k in d.entries
    requires Reached(d, keys, dt)
    ensures var o := LiveEach(d, id, keys, dt); var i := FirstFlagged(d, keys, dt);
      && (o.2 <==> i < |keys|)
      && |o.1| == if i < |keys| then i + 1 else |keys|
    decreases |keys|
  {
    if 0 < |keys| && !Sprites.Update(d.entries[keys[0]], dt).destroyNextFrame {
      var d2 := UpdateOne(d, id, keys[0], dt);
      LiveHead(d, id, keys, dt);
      LiveStopsAtFirst(d2, id, keys[1..], dt);
    }
  }

  /**
    Every sprite the live loop visits before the last one stayed, and when the
    loop ends in the exception, the last one it visited is the one that asked
    to be destroyed.
   */
  lemma LiveVisitsUpToFlagged(d: SortedDict.Dict<Sprite>, id: ManagerId, keys: seq<string>, dt: real)
    requires Owned(d, id)
    requires StrictlySorted(keys)
    requires forall k :: k in keys ==> k in d.entries
    requires Reached(d, keys, dt)
    ensures var o := LiveEach(d, id, keys, dt);
      && (forall j :: 0 <= j < |o.1| - 1 ==>
            UpdateDefined(d.entries[o.1[j]], dt) && !Sprites.Update(d.entries[o.1[j]], dt).destroyNextFrame)
      && (o.2 ==> 0 < |o.1| && UpdateDefined(d.entries[o.1[|o.1| - 1]], dt)
                  && Sprites.Update(d.entries[o.1[|o.1| - 1]], dt).destroyNextFrame)
  {
    LiveStopsAtFirst(d, id, keys, dt);
    var o := LiveEach(d, id, keys, dt);
    assert forall j :: 0 <= j < |o.1| ==> o.1[j] == keys[j];
  }

  /**
    Every sprite the live loop visits is updated: it is replaced by its update
    or, when the update asks for destruction, removed. Every other entry is
    left as it was.
   */
  lemma {:induction false} LiveUpdatesVisited(d: SortedDict.Dict<Sprite>, id: ManagerId, keys: seq<string>, dt: real)
    requires Owned(d, id)
    requires StrictlySorted(keys)
    requires forall k :: k in keys ==> k in d.entries
    requires Reached(d, keys, dt)
    ensures var o := LiveEach(d, id, keys, dt);
      && (forall k :: k in o.1 ==> k in d.entries && UpdateDefined(d.entries[k], dt))
      && UpdatedFrom(d, o.1, dt, o.0)
    decreases |keys|
  {
    if 0 < |keys| {
      var k := keys[0];
      var d2 := UpdateOne(d, id, k, dt);
      UpdateRest(d, d2, keys, dt);
      if Sprites.Update(d.entries[k], dt).destroyNextFrame {
        UpdateStep(d, d2, [k], dt, d2);
      } else {
        LiveHead(d, id, keys, dt);
        LiveUpdatesVisited(d2, id, keys[1..], dt);
        var rest := LiveEach(d2, id, keys[1..], dt);
        LiveUpdatesStep(d, d2, keys, dt, rest.0, rest.1);
      }
    }
  }

  /** An iteration that keeps its sprite, then the visits of the rest of the loop. */
  lemma LiveUpdatesStep(d: SortedDict.Dict<Sprite>, d2: SortedDict.Dict<Sprite>, keys: seq<string>, dt: real,
                        r: SortedDict.Dict<Sprite>, visited: seq<string>)
    requires 0 < |keys| && keys[0] !in keys[1..]
    requires forall k :: k in keys ==> k in d.entries
    requires UpdateDefined(d.entries[keys[0]], dt)
    requires var s := Sprites.Update(d.entries[keys[0]], dt);
      !s.destroyNextFrame && d2.entries == d.entries[keys[0] := s]
    requires |visited| <= |keys| - 1 && visited == keys[1..][..|visited|]
    requires forall k :: k in visited ==> k in d2.entries && UpdateDefined(d2.entries[k], dt)
    requires UpdatedFrom(d2, visited, dt, r)
    ensures forall k :: k in [keys[0]] + visited ==> k in d.entries && UpdateDefined(d.entries[k], dt)
    ensures UpdatedFrom(d, [keys[0]] + visited, dt, r)
  {
    PrefixMembers(visited, keys[1..]);
    var v := [keys[0]] + visited;
    assert v[1..] == visited;
    UpdateStep(d, d2, v, dt, r);
  }

  /** Every member of a prefix is a member of the whole. */
  lemma PrefixMembers(p: seq<string>, s: seq<string>)
    requires |p| <= |s| && p == s[..|p|]
    ensures forall j :: j in p ==> j in s
  {
    forall j | j in p
      ensures j in s
    {
      var i :| 0 <= i < |p| && p[i] == j;
      assert s[i] == j;
    }
  }

  /** A prefix of the tail, with the head in front, is a prefix of the whole. */
  lemma PrefixOfTail(keys: seq<string>, p: seq<string>)
    requires 0 < |keys| && |p| <= |keys| - 1 && p == keys[1..][..|p|]
    ensures |[keys[0]] + p| <= |keys| && [keys[0]] + p == keys[..|p| + 1]
  {
  }

  /**
    The first iteration of the live loop, when it removes nothing: the rest of
    the loop runs on the updated dictionary over the remaining names.
   */
  lemma LiveHead(d: SortedDict.Dict<Sprite>, id: ManagerId, keys: seq<string>, dt: real)
    requires Owned(d, id)
    requires StrictlySorted(keys)
    requires forall k :: k in keys ==> k in d.entries
    requires Reached(d, keys, dt)
    requires 0 < |keys| && !Sprites.Update(d.entries[keys[0]], dt).destroyNextFrame
    ensures var d2 := UpdateOne(d, id, keys[0], dt);
      && Owned(d2, id) && StrictlySorted(keys[1..])
      && (forall k :: k in keys[1..] ==> k in d2.entries)
      && Reached(d2, keys[1..], dt)
      && FirstFlagged(d, keys, dt) == FirstFlagged(d2, keys[1..], dt) + 1
      && var rest := LiveEach(d2, id, keys[1..], dt);
         LiveEach(d, id, keys, dt) == (rest.0, [keys[0]] + rest.1, rest.2)
  {
    var d2 := UpdateOne(d, id, keys[0], dt);
    UpdateRest(d, d2, keys, dt);
    assert Reached(d, keys[1..], dt);
    ReachedAgree(d, d2, keys[1..], dt);
  }

  /** The enumerator is invalidated exactly when some sprite asks for destruction. */
  lemma LiveInvalidatedIff(d: SortedDict.Dict<Sprite>, id: ManagerId, keys: seq<string>, dt: real)
    requires Owned(d, id)
    requires StrictlySorted(keys)
    requires forall k :: k in keys ==> k in d.entries && UpdateDefined(d.entries[k], dt)
    ensures Reached(d, keys, dt)
    ensures LiveEach(d, id, keys, dt).2 <==> SomeFlagged(d, keys, dt)
  {
    UpdatableReached(d, keys, dt);
    LiveStopsAtFirst(d, id, keys, dt);
  }

  /** With no destruction, the live loop updates exactly as the snapshot loop does. */
  lemma {:induction false} LiveAgrees(d: SortedDict.Dict<Sprite>, id: ManagerId, keys: seq<string>, dt: real)
    requires Owned(d, id)
    requires StrictlySorted(keys)
    requires forall k :: k in keys ==> k in d.entries && UpdateDefined(d.entries[k], dt)
    requires !SomeFlagged(d, keys, dt)
    ensures Reached(d, keys, dt)
    ensures LiveEach(d, id, keys, dt) == (UpdateEach(d, id, keys, dt).0, keys, false)
    decreases |keys|
  {
    UpdatableReached(d, keys, dt);
    if 0 < |keys| {
      var k := keys[0];
      assert k in keys;
      var d2 := UpdateOne(d, id, k, dt);
      UpdateRest(d, d2, keys, dt);
      ReachedAgree(d, d2, keys[1..], dt);
      assert !SomeFlagged(d2, keys[1..], dt) by {
        assert forall j :: j in keys[1..] ==> j in keys;
      }
      LiveAgrees(d2, id, keys[1..], dt);
    }
  }

  /**
    With a destruction, the live loop stops right after it: every sprite under
    a name it did not reach keeps its state from before the loop.
   */
  lemma {:induction false} LiveStopsEarly(d: SortedDict.Dict<Sprite>, id: ManagerId, keys: seq<string>, dt: real)
    requires Owned(d, id)
    requires StrictlySorted(keys)
    requires forall k :: k in keys ==> k in d.entries
    requires Reached(d, keys, dt)
    ensures var o := LiveEach(d, id, keys, dt);
      forall k :: k in keys[|o.1|..] ==> k in o.0.entries && o.0.entries[k] == d.entries[k]
    decreases |keys|
  {
    if 0 < |keys| {
      var k := keys[0];
      var d2 := UpdateOne(d, id, k, dt);
      UpdateRest(d, d2, keys, dt);
      if !Sprites.Update(d.entries[k], dt).destroyNextFrame {
        LiveHead(d, id, keys, dt);
        LiveStopsEarly(d2, id, keys[1..], dt);
        var rest := LiveEach(d2, id, keys[1..], dt);
        assert keys[1..][|rest.1|..] == keys[|rest.1| + 1..];
      }
    }
  }

  /**
    `UpdateSprites` as written. Only the sprites the loop reaches need to be
    updatable: those up to the first one that asks to be destroyed.
   */
  function UpdateSpritesAsWritten(m: SpriteManager, dt: real): (o: LiveOutcome)
    requires Valid(m) && Reached(m.sprites, m.sprites.order, dt)
    ensures Valid(o.registry)
    ensures o.registry.(sprites := m.sprites) == m
    ensures o.Invalidated? <==> FirstFlagged(m.sprites, m.sprites.order, dt) < |m.sprites.order|
    ensures Updatable(m.sprites, dt) ==> (o.Invalidated? <==> SomeFlagged(m.sprites, m.sprites.order, dt))
    ensures |o.visited| <= |m.sprites.order| && o.visited == m.sprites.order[..|o.visited|]
    ensures forall k :: k in o.visited ==> k in m.sprites.entries && UpdateDefined(m.sprites.entries[k], dt)
    ensures UpdatedFrom(m.sprites, o.visited, dt, o.registry.sprites)
  {
    LiveStopsAtFirst(m.sprites, m.id, m.sprites.order, dt);
    LiveUpdatesVisited(m.sprites, m.id, m.sprites.order, dt);
    FlaggedWhenUpdatable(m.sprites, m.sprites.order, dt);
    var o := LiveEach(m.sprites, m.id, m.sprites.order, dt);
    if o.2 then Invalidated(m.(sprites := o.0), o.1) else Finished(m.(sprites := o.0), o.1)
  }

  /** While no sprite asks to be destroyed, the loop as written is the snapshot loop. */
  lemma AgreesWithoutDestruction(m: SpriteManager, dt: real)
    requires Valid(m) && Updatable(m.sprites, dt)
    requires forall k :: k in m.sprites.entries ==> !Sprites.Update(m.sprites.entries[k], dt).destroyNextFrame
    ensures Reached(m.sprites, m.sprites.order, dt)
    ensures UpdateSpritesAsWritten(m, dt) == Finished(UpdateSprites(m, dt).registry, UpdateSprites(m, dt).visited)
  {
    assert !SomeFlagged(m.sprites, m.sprites.order, dt);
    LiveAgrees(m.sprites, m.id, m.sprites.order, dt);
  }

  /**
    Once a sprite asks to be destroyed, the loop as written ends in the
    exception right after updating and removing it: every sprite before it
    holds its update, and every sprite after it keeps its state from before
    the pass, so it misses its update.
   */
  lemma ThrowsAfterDestruction(m: SpriteManager, dt: real)
    requires Valid(m) && Reached(m.sprites, m.sprites.order, dt)
    requires FirstFlagged(m.sprites, m.sprites.order, dt) < |m.sprites.order|
    ensures var o := UpdateSpritesAsWritten(m, dt); var i := FirstFlagged(m.sprites, m.sprites.order, dt);
      && o.Invalidated?
      && o.visited == m.sprites.order[..i + 1]
      && (forall j :: 0 <= j < i ==> !Sprites.Update(m.sprites.entries[o.visited[j]], dt).destroyNextFrame)
      && Sprites.Update(m.sprites.entries[o.visited[i]], dt).destroyNextFrame
      && (forall k :: k in m.sprites.order[i + 1..] ==>
           k in o.registry.sprites.entries && o.registry.sprites.entries[k] == m.sprites.entries[k])
      && (forall j :: 0 <= j < i ==>
           o.visited[j] in o.registry.sprites.entries
           && o.registry.sprites.entries[o.visited[j]] == Sprites.Update(m.sprites.entries[o.visited[j]], dt))
      && o.visited[i] !in o.registry.sprites.entries
  {
    LiveThrows(m.sprites, m.id, m.sprites.order, dt);
  }

  /** `ThrowsAfterDestruction` for the live loop over any sorted run of names. */
  lemma LiveThrows(d: SortedDict.Dict<Sprite>, id: ManagerId, keys: seq<string>, dt: real)
    requires Owned(d, id)
    requires StrictlySorted(keys)
    requires forall k :: k in keys ==> k in d.entries
    requires Reached(d, keys, dt)
    requires FirstFlagged(d, keys, dt) < |keys|
    ensures var o := LiveEach(d, id, keys, dt); var i := FirstFlagged(d, keys, dt);
      && o.2
      && |o.1| == i + 1 && o.1 == keys[..i + 1]
      && (forall j :: 0 <= j <= i ==> o.1[j] in d.entries)
      && (forall j :: 0 <= j < i ==> !Sprites.Update(d.entries[o.1[j]], dt).destroyNextFrame)
      && Sprites.Update(d.entries[o.1[i]], dt).destroyNextFrame
      && (forall k :: k in keys[i + 1..] ==> k in o.0.entries && o.0.entries[k] == d.entries[k])
      && (forall j :: 0 <= j < i ==>
           o.1[j] in o.0.entries && o.0.entries[o.1[j]] == Sprites.Update(d.entries[o.1[j]], dt))
      && o.1[i] !in o.0.entries
  {
    var o := LiveEach(d, id, keys, dt);
    LiveStopsAtFirst(d, id, keys, dt);
    LiveVisitsUpToFlagged(d, id, keys, dt);
    LiveStopsEarly(d, id, keys, dt);
    LiveUpdatesVisited(d, id, keys, dt);
    VisitedState(d, o.1, dt, o.0);
  }

  /** Of the visited sprites, those that stayed hold their update and the flagged one is gone. */
  lemma VisitedState(d: SortedDict.Dict<Sprite>, visited: seq<string>, dt: real, r: SortedDict.Dict<Sprite>)
    requires forall k :: k in visited ==> k in d.entries && UpdateDefined(d.entries[k], dt)
    requires UpdatedFrom(d, visited, dt, r)
    ensures forall j :: 0 <= j < |visited| && !Sprites.Update(d.entries[visited[j]], dt).destroyNextFrame ==>
      visited[j] in r.entries && r.entries[visited[j]] == Sprites.Update(d.entries[visited[j]], dt)
    ensures forall j :: 0 <= j < |visited| && Sprites.Update(d.entries[visited[j]], dt).destroyNextFrame ==>
      visited[j] !in r.entries
  {
    assert forall j :: 0 <= j < |visited| ==> visited[j] in visited;
  }

  /**
    The shape of the counterexample: two plain sprites "a" and "b", where "a"
    is flagged for destruction and "b" is at the origin moving right.
   */
  ghost predicate FlaggedThenMoving(m: SpriteManager) {
    && Valid(m) && Updatable(m.sprites, 0.0)
    && m.sprites.order == ["a", "b"]
    && m.sprites.entries["a"].kind.Plain? && m.sprites.entries["a"].destroyNextFrame
    && m.sprites.entries["b"].kind.Plain? && !m.sprites.entries["b"].destroyNextFrame
    && m.sprites.entries["b"].position == Zero && m.sprites.entries["b"].velocity == Vec(1.0, 0.0)
  }

  const Sheet := Texture(0, 16, 16)

  /** A registry of that shape exists. */
  function TwoSprites(): (m: SpriteManager)
    ensures FlaggedThenMoving(m)
  {
    var a := NewSprite("a", Sheet).(manager := Some(0), destroyNextFrame := true);
    var b := NewSprite("b", Sheet).(manager := Some(0), velocity := Vec(1.0, 0.0));
    assert Less("a", "b");
    SpriteManager(0, SortedDict.Dict(map["a" := a, "b" := b], ["a", "b"]), 0.0, 0.0, false, false)
  }

  /**
    On such a registry the loop as written throws after removing "a", and "b"
    is still at the origin.
   */
  lemma FlaggedSpriteBreaksTheLoop(m: SpriteManager)
    requires FlaggedThenMoving(m)
    ensures var o := UpdateSpritesAsWritten(m, 0.0);
      && o.Invalidated?
      && o.visited == ["a"]
      && !HasSprite(o.registry, "a")
      && o.registry.sprites.entries["b"].position == Zero
  {
    var d := m.sprites;
    assert d.order[0] == "a" && d.order[1..] == ["b"];
    var l := LiveEach(d, m.id, d.order, 0.0);
    assert l.1 == ["a"] && l.2;
    assert "a" !in l.0.entries;
    ThrowsAfterDestruction(m, 0.0);
    assert "b" in d.order[1..];
  }

  /** On the same registry the snapshot loop removes "a" and still moves "b". */
  lemma SnapshotLoopMovesTheRest(m: SpriteManager)
    requires FlaggedThenMoving(m)
    ensures var u := UpdateSprites(m, 0.0);
      && u.visited == ["a", "b"]
      && !HasSprite(u.registry, "a")
      && u.registry.sprites.entries["b"].position == Vec(1.0, 0.0)
  {
    var u := UpdateSprites(m, 0.0);
    SortedUnique(u.visited, ["a", "b"]);
    assert "b" in m.sprites.order;
  }
}
